=== FILE: README.md ===
# n8n MCP tools over HTTP — a Dafny model

This project models the request logic of a small server that exposes the REST API
of an n8n workflow-automation instance as nine callable "tools" over JSON-RPC 2.0
(the Model Context Protocol tool surface), on its HTTP binding:

- **The HTTP endpoint** (`server-http.mjs`): one handler turns the HTTP method and
  the outcome of reading the body into an HTTP status and a response object. It
  rejects non-POST requests (405) and unparseable bodies (400), reads an empty body
  as `{}`, routes on `method` to `initialize`, `notifications/initialized`,
  `tools/list` and `tools/call`, dispatches the nine tools by name, lets each tool
  wrapper validate its arguments, and turns any fault into a -32603 internal error
  with status 500.
- **The n8n client** (`n8nClient.mjs`): base-URL normalisation, the generic
  `callN8N` (API-key check, request, reading of the reply), the post-fetch filter
  pipeline of `listWorkflows`, the "simple workflow" body, the `run` body, the
  executions query string, and the guards on `id` and `patch`.

The model is functional. `Handle` is a pure function of the HTTP method, the body
read outcome, the environment (`N8N_BASE_URL`, `N8N_API_KEY`) and a `Runtime`
record holding the two host services the model does not look inside: `fetch`, an
oracle from a request to a reply or network failure, and `JSON.stringify`. Every
client operation returns its outcome together with the requests it sent, so "no
backing call is made" is stated as `sent == []`.

Files, one module each:

| file | module | models |
|---|---|---|
| `optional.dfy` | `Optional` | absent values |
| `strings.dfy` | `Strings` | `toLowerCase`, `includes`, `trim`, `String(n)`, `join` |
| `js.dfy` | `Js` | JavaScript values, truthiness, `typeof`, property reads, `String(v)`, thrown errors |
| `backend.dfy` | `Backend` | environment, base URL, `callN8N`, the `fetch` oracle |
| `sequences.dfy` | `Sequences` | order-preserving subsequences |
| `workflow_filter.dfy` | `WorkflowFilter` | projection, search, active-only and limit steps of `listWorkflows` |
| `n8n_client.dfy` | `N8nClient` | the nine client operations |
| `tool_catalog.dfy` | `ToolCatalog` | the nine tools, the `tools/list` catalog, lookup by name |
| `tools.dfy` | `Tools` | the nine `tool_*` wrappers and dispatch |
| `http_server.dfy` | `HttpServer` | body reading, routing, the handler and its properties |

Behaviour of the code worth knowing:

- The tool wrappers do not catch client failures. A failed backing call (missing
  key, non-ok status, network failure) therefore becomes a -32603 "Internal error"
  with HTTP status 500.
- `create_workflow` reads `active` and passes `!!active` on, but the body that is
  sent never carries an `active` field.
- `update_workflow` picks `patch || workflow` and refuses when that value is not an
  object, even when the other field is a valid object.
- A `create_workflow` name that is truthy but not a string passes the wrapper's
  check and is then rejected by `createSimpleWorkflow` with a thrown error (status 500).
- A truthy `search` that is not a string makes `listWorkflows` throw after the
  workflows have been fetched; so does a non-blank search meeting a workflow whose
  name is not a string.
- A negative `limit` follows `Array.prototype.slice`: it drops that many workflows
  from the end.
- Property reads see the prototype chain. Options given as a string make
  `listWorkflows` read `search` from `String.prototype`, a function, which is
  truthy and not a string, so the listing throws after its request.
- `String(v)` throws a `TypeError` for an object with an own `toString` member (it
  is not callable, since objects arrive through `JSON.parse`) and for an array
  holding such an object. Such an `id`, `workflowId` or `status` makes the client
  throw before any request, and such a `method` or tool name makes the server
  answer -32603 with status 500 instead of -32601, because the error message is
  built inside the `try`.

## Model

| member | source | states |
|---|---|---|
| `Strings.TrimEmptyIffBlank` | n8nClient.mjs:58 | `search.trim()` is empty exactly when every character of `search` is ECMAScript white space |
| `Strings.NatToStrRoundTrip` | n8nClient.mjs:176 | the decimal text `String(n)` writes for a limit reads back as `n`; this is the engine's text only for `n < 10^21` |
| `Js.Truthy` | n8nClient.mjs:58-63 | exactly `undefined`, `null`, `false`, `0` and `""` are falsy; arrays, objects and functions are truthy |
| `Js.Inherited` | n8nClient.mjs:44 | nothing is read from `null` or `undefined`; every other value inherits the `Object.prototype` methods, and an inherited member is a built-in function or `undefined` (a function's own `name` aside) |
| `Js.FaultToStr` | server-http.mjs:622 | `String(err)` is the error's name alone for an empty message, else the name, `": "` and the message |
| `Js.ToStr` | n8nClient.mjs:172-176 | the text of a string is itself; of a non-negative integer, decimal digits reading back as the number; of a negative one, text starting with `-`; of a one-element array, its element's text, or `""` for a nullish element |
| `Js.ToString` | n8nClient.mjs:77 | `String(v)` throws exactly when `v` is not convertible (an object with an own `toString`, or an array holding one), with "Cannot convert object to primitive value", and otherwise gives `ToStr(v)` |
| `Js.Read` | n8nClient.mjs:48 | a strict property read such as `data.data` throws exactly on `null`/`undefined` and otherwise yields the property or `undefined` |
| `Backend.StripTrailingSlashes` | n8nClient.mjs:5 | the result is a prefix of the input not ending in `/`, and everything it drops is `/` |
| `Backend.BaseUrl` | n8nClient.mjs:4-6 | the base URL never ends with `/`; it is the default when the variable is unset or only slashes, else the variable minus its trailing run of slashes |
| `Backend.StripTrailingSlashesUnique` | n8nClient.mjs:5 | `replace(/\/+$/, "")` is the unique prefix without a trailing slash that leaves only slashes behind |
| `Backend.StripTrailingSlashesIdempotent` | n8nClient.mjs:5 | normalising an already normalised URL changes nothing |
| `Backend.CallN8N` | n8nClient.mjs:11-34 | a missing or empty key throws before any request; otherwise exactly one request to base URL + path with the key; a reply is accepted iff its status is 2xx; a non-ok reply throws with the status, reason, URL and body; a result is the parsed body of the ok reply, or `{}` when it does not parse |
| `Backend.Answer` | n8nClient.mjs:23-33 | once a request is sent, the call returns exactly when the reply is ok, with its parsed body or `{}`; a reply that is not ok throws the error naming status, reason, URL and body; a network failure throws the `TypeError` of `fetch` |
| `Backend.FailedReplyIsReported` | n8nClient.mjs:25-30 | the error raised for a non-ok reply mentions its status, status text, URL and body text |
| `Sequences.PrefixIsSubsequence` | n8nClient.mjs:67-69 | cutting an order-preserving subsequence to a prefix keeps it one |
| `WorkflowFilter.ProjectAll` | n8nClient.mjs:50-56 | the projection succeeds iff no workflow is `null`, and then maps each workflow, in order, to `{id, name, active: !!active, createdAt, updatedAt}` |
| `WorkflowFilter.Select` | n8nClient.mjs:58-65 | a filter keeps only wanted elements of its input and every wanted element |
| `WorkflowFilter.SelectIsSubsequence` | n8nClient.mjs:58-65 | a filter returns an order-preserving subsequence of its input |
| `WorkflowFilter.SelectNothing` | n8nClient.mjs:58 | with no name filter and no active filter every workflow is kept |
| `WorkflowFilter.SelectFusion` | n8nClient.mjs:58-65 | filtering by name and then by activity equals one filter on both criteria |
| `WorkflowFilter.SliceEnd` | n8nClient.mjs:68 | `slice(0, limit)` stops at `min(limit, length)` for a non-negative limit and drops `-limit` elements from the end for a negative one |
| `WorkflowFilter.SearchStep` | n8nClient.mjs:58-61 | a falsy or blank search filters nothing; a truthy non-string search throws; a non-blank search succeeds iff every name is a string and keeps only names containing it case-insensitively |
| `WorkflowFilter.ActiveStep` | n8nClient.mjs:63-65 | with `activeOnly` every kept workflow is active and every active one is kept; without it nothing is dropped |
| `WorkflowFilter.LimitStep` | n8nClient.mjs:67-69 | the result is a prefix of its input; the input itself when `limit` is not a number; otherwise exactly `SliceEnd(length, limit)` long, that is `min(limit, length)` for a non-negative limit and `length - min(-limit, length)` for a negative one |
| `WorkflowFilter.Pipeline` | n8nClient.mjs:58-71 | only a truthy search can make the steps throw; every workflow kept comes from the input and meets the search and active criteria |
| `WorkflowFilter.PipelineThrows` | n8nClient.mjs:58-61 | the filters throw exactly when the search is truthy but not a string, or is non-blank and some name is not a string |
| `WorkflowFilter.PipelineIsFirstMatches` | n8nClient.mjs:58-71 | search, then active, then limit returns the first `limit` workflows meeting both criteria, in original order |
| `WorkflowFilter.PipelineProperties` | n8nClient.mjs:58-71 | the result is an order-preserving subsequence whose every element meets the criteria, holds all matches without a numeric limit, and `min(limit, matches)` of them with a non-negative one |
| `N8nClient.OptionsBag` | n8nClient.mjs:43-44 | an `options = {}` parameter: `undefined` becomes `{}` and only `null` throws |
| `N8nClient.Listing` | n8nClient.mjs:48-71 | a successful listing read a non-null reply whose source list (`data.data` when an array, else `data`) is an array without nullish items, and is the filter pipeline over its summaries; conversely every such reply yields exactly that pipeline's outcome |
| `N8nClient.ActiveOnlyOf` | n8nClient.mjs:44 | the `activeOnly = false` default changes the option only when it is `undefined`, and never its truthiness |
| `N8nClient.ListWorkflows` | n8nClient.mjs:43-72 | a `null` options bag throws without a request; otherwise the listing makes exactly the one GET of `/api/v1/workflows`, a failed call's fault passes through, an ok reply yields the `Listing` of its value under the options (with `activeOnly` defaulting to `false`), and a result is `slice(0, limit)` of the projected workflows meeting the search and active criteria, in order, or all of them when `limit` is not a number |
| `N8nClient.StringOptionsNeverList` | n8nClient.mjs:43-61 | options given as a string inherit a function `search`, so the listing always throws, after its one request when the key is set |
| `N8nClient.ListWorkflowsReturnsMatches` | n8nClient.mjs:43-72 | a successful listing had the key and an ok reply, is an order-preserving subsequence of the projected source list meeting the search and active criteria, and equals `slice(0, limit)` of all the matches when `limit` is a number, or all of them otherwise |
| `N8nClient.ById` | n8nClient.mjs:75-77 | an id-taking operation throws its own message on a falsy id and a `TypeError` on an id `String` rejects, both without a request; otherwise its outcome is `callN8N`'s for its one request, so it throws the missing-key error without a request, or resolves to the answer to that request (ok reply returned, any other outcome thrown) |
| `N8nClient.GetWorkflowById` | n8nClient.mjs:75-78 | a truthy convertible id makes the outcome `callN8N`'s for one GET of `/api/v1/workflows/<id>`, so an ok reply is returned and any other outcome thrown |
| `N8nClient.DeleteWorkflowById` | n8nClient.mjs:81-86 | a truthy convertible id makes the outcome `callN8N`'s for one DELETE of `/api/v1/workflows/<id>`, so an ok reply is returned and any other outcome thrown |
| `N8nClient.UpdateWorkflowById` | n8nClient.mjs:134-144 | a non-object patch throws without a request, before the id is converted; otherwise, for a truthy convertible id, the outcome is `callN8N`'s for one PATCH of `/api/v1/workflows/<id>` carrying the patch, or `{}` for an absent patch |
| `N8nClient.RunBody` | n8nClient.mjs:153-161 | the run body holds `payload` iff it is truthy and `mode` iff it is truthy, each with the given value, and is absent iff neither is |
| `N8nClient.RunWorkflow` | n8nClient.mjs:150-167 | a falsy id throws without a request; `null` options throw; an id `String` rejects throws a `TypeError`; otherwise the outcome is `callN8N`'s for one POST of `/api/v1/workflows/<id>/run` carrying the run body |
| `N8nClient.GetExecutionById` | n8nClient.mjs:185-188 | a truthy convertible id makes the outcome `callN8N`'s for one GET of `/api/v1/executions/<id>`, so an ok reply is returned and any other outcome thrown |
| `N8nClient.StopExecutionById` | n8nClient.mjs:191-196 | a truthy convertible id makes the outcome `callN8N`'s for one POST of `/api/v1/executions/<id>/stop`, so an ok reply is returned and any other outcome thrown |
| `N8nClient.FalsyIdIsRejected` | n8nClient.mjs:74-196 | all six id-taking operations throw their own "id manquant" error on a falsy id and send nothing |
| `N8nClient.UnconvertibleIdIsRejected` | n8nClient.mjs:74-196 | all six id-taking operations throw the `TypeError` of `String` on an id it rejects, once their own checks pass, and send nothing, with or without the key |
| `N8nClient.QueryParams` | n8nClient.mjs:172-176 | parameters appear in the order workflowId, status, limit; workflowId and status iff truthy, limit iff a number; each value is the text of its option |
| `N8nClient.ExecutionsQuery` | n8nClient.mjs:170-176 | appending throws a `TypeError` exactly when a truthy workflowId or status cannot be converted; otherwise the parameters are in the order workflowId, status, limit, present under the same conditions, each value `String` of its option |
| `N8nClient.QueryStringEmptyIff` | n8nClient.mjs:178 | the query string is empty exactly when no parameter was added |
| `N8nClient.ExecutionsListPath` | n8nClient.mjs:178-179 | the path is `/api/v1/executions`, followed by `?` and the query only when there is a parameter |
| `N8nClient.ListExecutions` | n8nClient.mjs:170-182 | a `null` options bag or an unconvertible filter throws without a request; otherwise the outcome is `callN8N`'s for one GET of `/api/v1/executions` carrying the filters as its query |
| `N8nClient.CreateName` | n8nClient.mjs:90-106 | the input is accepted iff it is a non-empty string, or an object whose `name` is a non-empty string; that string is the name |
| `N8nClient.SimpleWorkflowBody` | n8nClient.mjs:108-124 | the body has exactly the keys name, nodes, connections, settings, tags (no `active`), the given name, one node of type `n8n-nodes-base.manualTrigger`, `connections: {}`, `executionOrder: "v1"` and `tags: []` |
| `N8nClient.CreateSimpleWorkflow` | n8nClient.mjs:90-131 | a rejected input throws without a request; for an accepted one the outcome is `callN8N`'s for one POST of the simple workflow body to `/api/v1/workflows` |
| `ToolCatalog.Lookup` | server-http.mjs:550-568 | a name dispatches to a tool exactly when it is strictly equal to that tool's name |
| `ToolCatalog.LookupName` | server-http.mjs:550-568 | every tool name dispatches to its own tool |
| `ToolCatalog.NamesDistinct` | server-http.mjs:349-528 | no two tools share a name |
| `ToolCatalog.RequiredDeclared` | server-http.mjs:349-528 | each tool's required fields are among its declared properties |
| `ToolCatalog.CatalogWellFormed` | server-http.mjs:349-528 | the catalog has nine tools with pairwise distinct names, each `required` a subset of its properties |
| `ToolCatalog.CatalogMatchesDispatch` | server-http.mjs:349-568 | every advertised name dispatches to its own tool and every name that dispatches is advertised |
| `ToolCatalog.PropertiesValue` | server-http.mjs:356-373 | the `properties` object has exactly the declared field names as keys |
| `ToolCatalog.DefinitionValue` | server-http.mjs:352-374 | an entry carries its name, an object-typed schema whose property keys are the declared fields, and the required list |
| `ToolCatalog.CatalogValueWellFormed` | server-http.mjs:349-528 | the `tools` array sent has nine entries with distinct names, each required name a key of its `properties` |
| `Tools.Wrap` | server-http.mjs:81-90 | a client result becomes one text item holding its JSON text with `isError: false`; a client fault passes through uncaught; the requests are those of the client |
| `Tools.ListWorkflowsTool` | server-http.mjs:55-66 | never refuses; with options that are not `null` and the key set, the one request is the GET of `/api/v1/workflows`; it succeeds exactly when `listWorkflows` does, with the JSON text of the listed summaries |
| `Tools.IdTool` | server-http.mjs:68-91 | get_workflow, delete_workflow, get_execution and stop_execution (also lines 156-179, 219-267) refuse a falsy `id` with `isError: true`, one text item and no call; an id `String` rejects throws without a call; otherwise each sends its own request (GET or DELETE of the workflow, GET or stop POST of the execution); when the one request was made, an ok reply gives `isError: false` with the reply's JSON text and any other outcome is thrown |
| `Tools.CreateWorkflowTool` | server-http.mjs:93-116 | a falsy name is refused without a call; a truthy non-string name throws without a call; a non-empty string name sends the simple workflow body with that name; when the one request was made, an ok reply gives `isError: false` with the reply's JSON text and any other outcome is thrown |
| `Tools.UpdatePayload` | server-http.mjs:131 | the payload is `patch` when truthy, else `workflow` |
| `Tools.UpdateWorkflowTool` | server-http.mjs:118-154 | a falsy id is refused; a payload that is not an object is refused; an id `String` rejects throws; otherwise the payload is sent as the PATCH body; when the one request was made, an ok reply gives `isError: false` with the reply's JSON text and any other outcome is thrown |
| `Tools.UpdatePatchTakesPrecedence` | server-http.mjs:131-143 | a truthy non-object `patch` is refused even beside a valid `workflow`; `workflow` is sent only when `patch` is falsy |
| `Tools.RunWorkflowTool` | server-http.mjs:181-204 | a falsy id is refused without a call; an id `String` rejects throws without a call; otherwise one POST whose body holds exactly the truthy ones of `payload` and `mode`; when the one request was made, an ok reply gives `isError: false` with the reply's JSON text and any other outcome is thrown |
| `Tools.ListExecutionsTool` | server-http.mjs:206-217 | never refuses; an unconvertible filter throws without a call; otherwise, with the key set, the one request is the GET of `ExecutionsListPath` of the arguments' query; when the one request was made, an ok reply gives `isError: false` with the reply's JSON text and any other outcome is thrown |
| `Tools.Dispatch` | server-http.mjs:550-567 | every tool makes at most one backing call; a refusal makes none and a success exactly one; every result has one text item |
| `Tools.DispatchRelaysReply` | server-http.mjs:68-267 | every tool but `list_workflows` answers the one request it made with the client's answer to it: an ok reply as `isError: false` with the reply's JSON text, any other outcome thrown |
| `Tools.DispatchSendsOwnRequest` | server-http.mjs:550-567 | whenever a dispatched tool makes its call, the key was set and the request is the one its own client operation builds from the tool's arguments |
| `Tools.DispatchWrapsClient` | server-http.mjs:55-267 | each tool that accepts its arguments answers with its own client operation's result wrapped as a tool result, called with the arguments it passes on (`{ name, active: !!active }`, `patch || workflow`, `{ payload, mode }`, the arguments themselves) |
| `Tools.RefusalIffRequiredMissing` | server-http.mjs:68-267 | a tool returns an `isError: true` result exactly when one of its catalog-required arguments is falsy or, for `update_workflow` only, when its payload is not an object, and it makes no backing call when a required argument is falsy |
| `HttpServer.ReadJsonBody` | server-http.mjs:30-50 | an empty body reads as `{}`; the read fails exactly on a stream error or a non-empty body that does not parse |
| `HttpServer.ToolsCall` | server-http.mjs:543-597 | `tools/call` answers a JSON-RPC envelope echoing the id, with status 500 exactly when it carries -32603 |
| `HttpServer.Route` | server-http.mjs:290-614 | every routed answer is a JSON-RPC 2.0 envelope with exactly one of `result` and `error`, status 200 or 500, 500 exactly for -32603, and at most one backing call |
| `HttpServer.Handle` | server-http.mjs:272-631 | non-POST gives 405 `{"error":"Method not allowed"}` and no call; an unreadable body gives 400 `{"error":"Bad request"}` without JSON-RPC fields; a POST with a readable body is answered by routing the parsed request; everything else is an envelope with status 200 or 500; at most one backing call |
| `HttpServer.EmptyBodyIsUnknownMethod` | server-http.mjs:38-41 | an empty body is answered as a request without method: -32601 "Method not found: undefined" with no id |
| `HttpServer.RoutedResponseEchoesId` | server-http.mjs:290-336 | every routed response echoes the request id, except `notifications/initialized`, answered `id: null, result: null` whatever the request |
| `HttpServer.InitializeNegotiatesVersion` | server-http.mjs:301-316 | `initialize` returns the client's protocol version when truthy, else 2025-06-18, with fixed capabilities and server info and no call |
| `HttpServer.ToolsListAdvertisesCatalog` | server-http.mjs:349-537 | `tools/list` returns nine tools with distinct names whose required names are property keys, with no call |
| `HttpServer.UnknownMethodIsNotFound` | server-http.mjs:602-631 | any other convertible method gets status 200, -32601 "Method not found: <method>", no `result`, no call; one `String` rejects gets status 500 and -32603 |
| `HttpServer.UnknownToolIsNotFound` | server-http.mjs:568-631 | an unknown convertible tool name gets status 200, -32601 "Tool not found: <name>", no `result`, no call; one `String` rejects gets status 500 and -32603 |
| `HttpServer.ObjectMethodIsInternalError` | server-http.mjs:602-631 | a `method` that is an object with an own `toString` member is answered with status 500, -32603 and the conversion `TypeError`, without a call |
| `HttpServer.KnownToolOutcome` | server-http.mjs:585-631 | a known tool's result is sent with status 200; a fault it throws, backing failures included, gives status 500, -32603, "Internal error" and `data = String(err)` |
| `HttpServer.MissingArgumentIsToolError` | server-http.mjs:69-80 | a tool called without a required argument answers status 200 with `isError: true`, one text item and no backing call |

## Left out

- The line-stream binding (`server.mjs`, `mcpServer.mjs`): registrations on, and transport hookup to, an SDK whose behaviour is not visible.
- HTTP and stream plumbing: chunk accumulation, `writeHead`, `end`, the listening port. The body is an input already read (its text and its parse outcome), and the output is the status and response object.
- `JSON.parse` and `JSON.stringify`: the parse outcome is an input and the serialiser is an opaque `Runtime.stringify`. The response object is not serialised; when it is, a member whose value is `undefined` (an absent request `id`) is dropped.
- Object key order: objects are maps, so the order in which keys are serialised is not modelled.
- Numbers are integers: fractional values, `NaN`, `Infinity` and `-0` are not represented (in particular a fractional `limit`).
- Numbers are unbounded: `JSON.parse` rounds integers above 2^53 to the nearest double, and `String(n)` switches to exponent notation (`1e+21`) from 10^21 on. `Js.ToStr` and `Strings.NatToStrRoundTrip` state plain decimal digits at every magnitude, so they match the engine only below 10^21.
- Property reads model own members and the methods of the built-in prototypes; the `length` of strings and arrays, index properties and the `__proto__` accessor are not modelled, and an own member of an object is never callable.
- `toLowerCase` maps only the 26 ASCII capitals; Unicode case mapping is not modelled.
- `encodeURIComponent` and the form encoding of `URLSearchParams` are the identity on `String(value)`, including the `URIError` a lone surrogate would raise.
- Reading a reply's text is assumed to succeed (the source falls back to `""` when it fails); the reply's parse outcome is part of the oracle's answer.
- The messages of engine-raised `TypeError`s follow V8's wording but are not part of any property.
- Logging, `dotenv` loading and the API-key preview printed at start-up.
- Concurrency between requests: each request is handled independently and shares no state.
- The `Content-Type: application/json` header every request carries is not a field of the modelled request.

=== FILE: backend.dfy ===
/** The generic call to the n8n REST API: configuration from the environment,
    the request it sends through `fetch`, and how the reply is read. `fetch` itself
    is an oracle supplied by the caller, together with the JSON serialiser. */
module Backend {
  import opened Optional
  import opened Strings
  import opened Js

  /** Used when `N8N_BASE_URL` is unset or holds nothing but slashes. */
  const DefaultBaseUrl: string := "https://n8n.guzzler-bot.cloud"

  const MissingKeyMessage: string := "La variable d'environnement N8N_API_KEY n'est pas définie."

  /** The two environment variables the client reads. */
  datatype Env = Env(baseUrl: Option<string>, apiKey: Option<string>)

  /** One request handed to `fetch`. Every request also carries the header
      `Content-Type: application/json`; `apiKey` is the `X-N8N-API-KEY` header and
      `body` the JSON document sent, if any. */
  datatype HttpRequest = HttpRequest(verb: string, url: string, apiKey: string, body: Option<Value>)

  /** What `fetch` gives back: a reply, whose `json` is what parsing `text` as JSON
      yields (`None` for an empty or malformed body), or a network failure. */
  datatype FetchOutcome =
    | Responded(status: int, statusText: string, text: string, json: Option<Value>)
    | NetworkFailure(detail: string)

  /** The host services the model does not look inside: the network, and
      `JSON.stringify(v, null, 2)`. */
  datatype Runtime = Runtime(fetch: HttpRequest -> FetchOutcome, stringify: Value -> string)

  /** The outcome of an operation together with the requests it sent, in order. */
  datatype Traced<+T> = Traced(outcome: Result<T>, sent: seq<HttpRequest>)

  /** The result of `.replace(/\/+$/, "")`: `s` without its trailing run of slashes. */
  function StripTrailingSlashes(s: string): (r: string)
    ensures |r| <= |s| && r == s[..|r|]
    ensures r == [] || r[|r| - 1] != '/'
    ensures forall i :: |r| <= i < |s| ==> s[i] == '/'
  {
    if |s| > 0 && s[|s| - 1] == '/' then StripTrailingSlashes(s[..|s| - 1]) else s
  }

  /** Stripping trailing slashes is determined by the three facts its contract
      states: any prefix without a trailing slash that leaves only slashes behind
      is the stripped string. */
  lemma {:induction false} StripTrailingSlashesUnique(s: string, u: string)
    requires |u| <= |s| && u == s[..|u|]
    requires u == [] || u[|u| - 1] != '/'
    requires forall i :: |u| <= i < |s| ==> s[i] == '/'
    ensures StripTrailingSlashes(s) == u
  {
    if |s| > |u| {
      assert s[..|s| - 1][..|u|] == u;
      StripTrailingSlashesUnique(s[..|s| - 1], u);
    } else {
      assert s == u;
    }
  }

  /** Normalising twice is normalising once. */
  lemma StripTrailingSlashesIdempotent(s: string)
    ensures StripTrailingSlashes(StripTrailingSlashes(s)) == StripTrailingSlashes(s)
  {
    var r := StripTrailingSlashes(s);
    StripTrailingSlashesUnique(r, r);
  }

  /** `N8N_BASE_URL` without trailing slashes, or the default URL. */
  function BaseUrl(env: Env): (url: string)
    ensures url != [] && url[|url| - 1] != '/'
    ensures env.baseUrl.None? ==> url == DefaultBaseUrl
    ensures env.baseUrl.Some? ==>
      var s := env.baseUrl.value;
      if forall i :: 0 <= i < |s| ==> s[i] == '/' then url == DefaultBaseUrl
      else |url| <= |s| && url == s[..|url|] && forall i :: |url| <= i < |s| ==> s[i] == '/'
  {
    match env.baseUrl
    case None => DefaultBaseUrl
    case Some(s) =>
      var r := StripTrailingSlashes(s);
      if r == [] then DefaultBaseUrl else r
  }

  /** `!N8N_API_KEY` is false: the key is set and not empty. */
  predicate HasKey(env: Env) {
    env.apiKey.Some? && env.apiKey.value != ""
  }

  /** `res.ok` */
  predicate IsOk(status: int) {
    200 <= status <= 299
  }

  /** The message of the error raised for a reply that is not ok. */
  function ApiErrorMessage(status: int, statusText: string, url: string, text: string): string {
    Join(["Erreur API n8n ", IntToStr(status), " ", statusText, " sur ", url, " – corps: ", text], "")
  }

  /** `ApiErrorMessage` names the status, its reason phrase, the URL and the body. */
  lemma ApiErrorMessageMentions(status: int, statusText: string, url: string, text: string)
    ensures var m := ApiErrorMessage(status, statusText, url, text);
      Includes(m, IntToStr(status)) && Includes(m, statusText) && Includes(m, url) && Includes(m, text)
  {
    var parts := ["Erreur API n8n ", IntToStr(status), " ", statusText, " sur ", url, " – corps: ", text];
    JoinIncludesParts(parts, 1);
    JoinIncludesParts(parts, 3);
    JoinIncludesParts(parts, 5);
    JoinIncludesParts(parts, 7);
  }

  /** What an ok reply resolves to: its parsed body, or `{}` when the body does not
      parse (an empty body, for instance). */
  function ReplyValue(json: Option<Value>): (v: Value)
    ensures json.Some? ==> v == json.value
    ensures json.None? ==> v == EmptyObject
  {
    match json
    case Some(j) => j
    case None => EmptyObject
  }

  /** What `callN8N` resolves to once `request` is sent: the value of an ok reply,
      the API error for a reply that is not ok, or the `TypeError` of a failed
      `fetch`. */
  function Answer(rt: Runtime, request: HttpRequest): (r: Result<Value>)
    ensures r.Ok? <==> rt.fetch(request).Responded? && IsOk(rt.fetch(request).status)
    ensures r.Ok? ==> r.value == ReplyValue(rt.fetch(request).json)
    ensures rt.fetch(request).Responded? && !IsOk(rt.fetch(request).status) ==>
      r == Throw(Error(ApiErrorMessage(rt.fetch(request).status, rt.fetch(request).statusText,
                                       request.url, rt.fetch(request).text)))
    ensures rt.fetch(request).NetworkFailure? ==> r == Throw(TypeError(rt.fetch(request).detail))
  {
    match rt.fetch(request)
    case NetworkFailure(d) => Throw(TypeError(d))
    case Responded(status, statusText, text, json) =>
      if !IsOk(status) then Throw(Error(ApiErrorMessage(status, statusText, request.url, text)))
      else Ok(ReplyValue(json))
  }

  /** A call returns only after exactly one request, and a call that made its one
      request resolves to the answer to it: the ok reply's value, or the error for
      any other outcome. */
  predicate Relayed(rt: Runtime, t: Traced<Value>) {
    && (t.outcome.Ok? ==> |t.sent| == 1)
    && (|t.sent| == 1 ==> t.outcome == Answer(rt, t.sent[0]))
  }

  /** `callN8N(path, { method: verb, body })`. */
  function CallN8N(env: Env, rt: Runtime, verb: string, path: string, body: Option<Value>): (t: Traced<Value>)
    ensures !HasKey(env) ==> t == Traced(Throw(Error(MissingKeyMessage)), [])
    ensures HasKey(env) ==> t.sent == [HttpRequest(verb, BaseUrl(env) + path, env.apiKey.value, body)]
    ensures HasKey(env) ==>
      match rt.fetch(t.sent[0])
      case NetworkFailure(d) => t.outcome == Throw(TypeError(d))
      case Responded(status, statusText, text, json) =>
        && (t.outcome.Ok? <==> IsOk(status))
        && (!IsOk(status) ==> t.outcome == Throw(Error(ApiErrorMessage(status, statusText, t.sent[0].url, text))))
        && (IsOk(status) && json.None? ==> t.outcome == Ok(EmptyObject))
        && (IsOk(status) && json.Some? ==> t.outcome == Ok(json.value))
    ensures Relayed(rt, t)
  {
    if !HasKey(env) then Traced(Throw(Error(MissingKeyMessage)), [])
    else
      var url := BaseUrl(env) + path;
      var request := HttpRequest(verb, url, env.apiKey.value, body);
      Traced(Answer(rt, request), [request])
  }

  /** A reply that is not ok surfaces as an error naming its status, reason
      phrase, URL and body text, and nothing is returned. */
  lemma FailedReplyIsReported(env: Env, rt: Runtime, verb: string, path: string, body: Option<Value>)
    requires HasKey(env)
    requires var r := rt.fetch(HttpRequest(verb, BaseUrl(env) + path, env.apiKey.value, body));
      r.Responded? && !IsOk(r.status)
    ensures var t := CallN8N(env, rt, verb, path, body);
      var r := rt.fetch(t.sent[0]);
      && t.outcome.Throw? && t.outcome.fault.Error?
      && Includes(t.outcome.fault.message, IntToStr(r.status))
      && Includes(t.outcome.fault.message, r.statusText)
      && Includes(t.outcome.fault.message, BaseUrl(env) + path)
      && Includes(t.outcome.fault.message, r.text)
  {
    var r := rt.fetch(HttpRequest(verb, BaseUrl(env) + path, env.apiKey.value, body));
    ApiErrorMessageMentions(r.status, r.statusText, BaseUrl(env) + path, r.text);
  }
}

=== FILE: http_server.dfy ===
/** The HTTP JSON-RPC endpoint: one handler turns the HTTP method and the outcome
    of reading the body into a status, a response object and the backing calls
    made on the way. The response object is what the server serialises; members
    whose value is `undefined` (an absent request `id`) disappear when it is. */
module HttpServer {
  import opened Optional
  import opened Js
  import opened Backend
  import Catalog = ToolCatalog
  import opened Tools

  /** The protocol version offered when the client proposes none. */
  const DefaultProtocolVersion: string := "2025-06-18"

  const MethodNotFound: int := -32601
  const InternalError: int := -32603

  /** The request body as received: its text and what `JSON.parse` makes of it
      (`None` when parsing throws), or a failure of the request stream. */
  datatype BodyRead = Received(text: string, parsed: Option<Value>) | StreamFailed

  /** `readJsonBody(req)`: an empty body reads as `{}`; `None` is a rejected read. */
  function ReadJsonBody(b: BodyRead): (r: Option<Value>)
    ensures r.None? <==> b.StreamFailed? || (b.text != "" && b.parsed.None?)
    ensures b.Received? && b.text == "" ==> r == Some(EmptyObject)
    ensures b.Received? && b.text != "" && b.parsed.Some? ==> r == b.parsed
  {
    match b
    case StreamFailed => None
    case Received(text, parsed) => if text == "" then Some(EmptyObject) else parsed
  }

  /** What the handler produces: the HTTP status, the response object, and the
      requests sent to the backing API while handling. */
  datatype Exchange = Exchange(status: int, body: Value, sent: seq<HttpRequest>)

  /** `{ error: message }`: a rejection before any JSON-RPC routing. */
  function TransportError(message: string): Value {
    Obj(map["error" := Str(message)])
  }

  /** `{ ...baseResponse, result }` */
  function ResultEnvelope(id: Value, result: Value): Value {
    Obj(map["jsonrpc" := Str("2.0"), "id" := id, "result" := result])
  }

  /** `{ ...baseResponse, error: { code, message } }` */
  function ErrorEnvelope(id: Value, code: int, message: string): Value {
    Obj(map["jsonrpc" := Str("2.0"), "id" := id,
            "error" := Obj(map["code" := Num(code), "message" := Str(message)])])
  }

  /** The response of the `catch` around routing: `data` is `String(err)`. */
  function InternalErrorEnvelope(id: Value, f: Fault): Value {
    Obj(map["jsonrpc" := Str("2.0"), "id" := id,
            "error" := Obj(map["code" := Num(InternalError), "message" := Str("Internal error"),
                               "data" := Str(FaultToStr(f))])])
  }

  /** A JSON-RPC 2.0 response object: `jsonrpc: "2.0"`, an `id`, and exactly one
      of `result` and `error`. */
  predicate IsEnvelope(v: Value) {
    && v.Obj?
    && Get(v, "jsonrpc") == Str("2.0")
    && "id" in v.fields
    && ("result" in v.fields <==> "error" !in v.fields)
    && v.fields.Keys <= {"jsonrpc", "id", "result", "error"}
  }

  /** A JSON-RPC error response with the given code. */
  predicate IsRpcError(v: Value, code: int) {
    IsEnvelope(v) && "error" in v.fields && Get(v.fields["error"], "code") == Num(code)
  }

  /** A transport-level rejection: nothing but an `error` string, no JSON-RPC fields. */
  predicate IsTransportError(v: Value) {
    v.Obj? && v.fields.Keys == {"error"} && v.fields["error"].Str?
  }

  /** The `initialize` result. */
  function InitializeResult(params: Value): Value {
    Obj(map[
      "protocolVersion" := Or(Get(params, "protocolVersion"), Str(DefaultProtocolVersion)),
      "capabilities" := Obj(map["tools" := Obj(map["listChanged" := Bool(true)])]),
      "serverInfo" := Obj(map["name" := Str("n8n-mcp-server"), "version" := Str("1.0.0")])])
  }

  /** `request || {}`: the object the handler destructures. */
  function RequestObject(request: Value): Value {
    Or(request, EmptyObject)
  }

  /** `tools/call`: look the tool up by name and dispatch, or answer -32601. A fault
      from the tool, or from converting an unknown name to text, is the server's
      internal error, status 500. */
  function ToolsCall(id: Value, params: Value, env: Env, rt: Runtime): (x: Exchange)
    ensures x.status in {200, 500} && IsEnvelope(x.body) && Get(x.body, "id") == id
    ensures x.status == 500 <==> IsRpcError(x.body, InternalError)
    ensures |x.sent| <= 1
  {
    var toolName := Get(params, "name");
    var args := Or(Get(params, "arguments"), EmptyObject);
    match Catalog.Lookup(toolName)
    case None =>
      (match ToString(toolName)
       case Ok(name) => Exchange(200, ErrorEnvelope(id, MethodNotFound, "Tool not found: " + name), [])
       case Throw(f) => Exchange(500, InternalErrorEnvelope(id, f), []))
    case Some(tool) =>
      var t := Dispatch(tool, env, rt, args);
      match t.outcome
      case Ok(r) => Exchange(200, ResultEnvelope(id, ToolResultValue(r)), t.sent)
      case Throw(f) => Exchange(500, InternalErrorEnvelope(id, f), t.sent)
  }

  /** The routing of a parsed request by its `method`. */
  function Route(request: Value, env: Env, rt: Runtime): (x: Exchange)
    ensures x.status in {200, 500} && IsEnvelope(x.body)
    ensures x.status == 500 <==> IsRpcError(x.body, InternalError)
    ensures |x.sent| <= 1
  {
    var req := RequestObject(request);
    var id := Get(req, "id");
    var rpcMethod := Get(req, "method");
    var params := Get(req, "params");
    if rpcMethod == Str("initialize") then
      Exchange(200, ResultEnvelope(id, InitializeResult(params)), [])
    else if rpcMethod == Str("notifications/initialized") then
      Exchange(200, ResultEnvelope(Null, Null), [])
    else if rpcMethod == Str("tools/list") then
      Exchange(200, ResultEnvelope(id, Obj(map["tools" := Catalog.CatalogValue()])), [])
    else if rpcMethod == Str("tools/call") then
      ToolsCall(id, params, env, rt)
    else
      match ToString(rpcMethod)
      case Ok(name) => Exchange(200, ErrorEnvelope(id, MethodNotFound, "Method not found: " + name), [])
      case Throw(f) => Exchange(500, InternalErrorEnvelope(id, f), [])
  }

  /** The request handler of the HTTP server. */
  function Handle(httpMethod: string, b: BodyRead, env: Env, rt: Runtime): (x: Exchange)
    ensures x.status in {200, 400, 405, 500}
    ensures x.status == 405 <==> httpMethod != "POST"
    ensures x.status == 405 ==> x.body == TransportError("Method not allowed") && x.sent == []
    ensures x.status == 400 <==> httpMethod == "POST" && ReadJsonBody(b).None?
    ensures x.status == 400 ==> x.body == TransportError("Bad request") && x.sent == []
    ensures x.status in {400, 405} ==> IsTransportError(x.body) && !IsEnvelope(x.body)
    ensures x.status in {200, 500} ==> IsEnvelope(x.body)
    ensures x.status == 500 <==> IsRpcError(x.body, InternalError)
    ensures |x.sent| <= 1
    ensures httpMethod == "POST" && ReadJsonBody(b).Some? ==> x == Route(ReadJsonBody(b).value, env, rt)
  {
    if httpMethod != "POST" then Exchange(405, TransportError("Method not allowed"), [])
    else
      match ReadJsonBody(b)
      case None => Exchange(400, TransportError("Bad request"), [])
      case Some(request) => Route(request, env, rt)
  }

  // ---------------------------------------------------------------------------
  // Properties of the handler
  // ---------------------------------------------------------------------------

  /** An empty body is read as `{}`, which has no `method`: the answer is the
      unknown-method error with no id, whatever the parser would have said. */
  lemma EmptyBodyIsUnknownMethod(text: string, parsed: Option<Value>, env: Env, rt: Runtime)
    requires text == ""
    ensures Handle("POST", Received(text, parsed), env, rt)
         == Exchange(200, ErrorEnvelope(Undefined, MethodNotFound, "Method not found: undefined"), [])
  {
    assert ReadJsonBody(Received(text, parsed)) == Some(EmptyObject);
    assert Get(RequestObject(EmptyObject), "method") == Undefined;
    assert Get(RequestObject(EmptyObject), "id") == Undefined;
    assert "Method not found: " + ToStr(Undefined) == "Method not found: undefined";
  }

  /** Every routed response echoes the request's `id` (which is `undefined` when
      the request has none), except the acknowledgement of
      `notifications/initialized`, which is always `id: null, result: null`. */
  lemma RoutedResponseEchoesId(request: Value, env: Env, rt: Runtime)
    ensures var x := Route(request, env, rt);
      var req := RequestObject(request);
      if Get(req, "method") == Str("notifications/initialized") then
        x == Exchange(200, Obj(map["jsonrpc" := Str("2.0"), "id" := Null, "result" := Null]), [])
      else Get(x.body, "id") == Get(req, "id")
  {
  }

  /** `initialize` answers with the client's protocol version when it is truthy and
      with 2025-06-18 otherwise; capabilities and server identity are fixed, and no
      backing call is made. */
  lemma InitializeNegotiatesVersion(request: Value, env: Env, rt: Runtime)
    requires Get(RequestObject(request), "method") == Str("initialize")
    ensures var x := Route(request, env, rt);
      var proposed := Get(Get(RequestObject(request), "params"), "protocolVersion");
      var result := Get(x.body, "result");
      && x.status == 200 && x.sent == []
      && (Truthy(proposed) ==> Get(result, "protocolVersion") == proposed)
      && (!Truthy(proposed) ==> Get(result, "protocolVersion") == Str(DefaultProtocolVersion))
      && Get(Get(result, "capabilities"), "tools") == Obj(map["listChanged" := Bool(true)])
      && Get(result, "serverInfo") == Obj(map["name" := Str("n8n-mcp-server"), "version" := Str("1.0.0")])
  {
  }

  /** `tools/list` answers with the nine catalog entries, with distinct names and
      every required field declared, and makes no backing call. */
  lemma ToolsListAdvertisesCatalog(request: Value, env: Env, rt: Runtime)
    requires Get(RequestObject(request), "method") == Str("tools/list")
    ensures var x := Route(request, env, rt);
      var tools := Get(Get(x.body, "result"), "tools");
      && x.status == 200 && x.sent == []
      && tools.Arr? && |tools.items| == 9
      && (forall i, j :: 0 <= i < j < 9 ==> Get(tools.items[i], "name") != Get(tools.items[j], "name"))
      && (forall i :: 0 <= i < 9 ==>
            var schema := Get(tools.items[i], "inputSchema");
            forall k :: 0 <= k < |Get(schema, "required").items| ==>
              Get(schema, "required").items[k].s in Get(schema, "properties").fields)
  {
    Catalog.CatalogValueWellFormed();
  }

  /** A `method` outside the four routed ones is answered, with status 200, by a
      -32601 error naming it; the response has no `result` and nothing is sent.
      A `method` that `String` cannot convert makes the message itself throw: the
      answer is the internal error, status 500. */
  lemma UnknownMethodIsNotFound(request: Value, env: Env, rt: Runtime)
    requires var m := Get(RequestObject(request), "method");
      m !in {Str("initialize"), Str("notifications/initialized"), Str("tools/list"), Str("tools/call")}
    ensures var x := Route(request, env, rt);
      var m := Get(RequestObject(request), "method");
      var id := Get(RequestObject(request), "id");
      && (Convertible(m) ==>
            && x.status == 200 && x.sent == []
            && IsRpcError(x.body, MethodNotFound) && "result" !in x.body.fields
            && Get(Get(x.body, "error"), "message") == Str("Method not found: " + ToStr(m)))
      && (!Convertible(m) ==> x == Exchange(500, InternalErrorEnvelope(id, TypeError(CannotConvert)), []))
  {
  }

  /** A `method` object with an own `toString` member: its conversion into the
      not-found message throws, so the answer is the internal error. */
  lemma ObjectMethodIsInternalError(env: Env, rt: Runtime)
    ensures var request := Obj(map["method" := Obj(map["toString" := Num(1)])]);
      Route(request, env, rt) == Exchange(500, InternalErrorEnvelope(Undefined, TypeError(CannotConvert)), [])
  {
    var request := Obj(map["method" := Obj(map["toString" := Num(1)])]);
    assert !Convertible(Get(RequestObject(request), "method"));
    assert Get(RequestObject(request), "id") == Undefined;
    UnknownMethodIsNotFound(request, env, rt);
  }

  /** A `tools/call` whose name is not one of the nine tools is answered, with
      status 200, by a -32601 error naming it; nothing is sent. A name that
      `String` cannot convert gives the internal error, status 500, instead. */
  lemma UnknownToolIsNotFound(request: Value, env: Env, rt: Runtime)
    requires Get(RequestObject(request), "method") == Str("tools/call")
    requires forall t: Catalog.Tool :: Get(Get(RequestObject(request), "params"), "name") != Str(Catalog.Name(t))
    ensures var x := Route(request, env, rt);
      var name := Get(Get(RequestObject(request), "params"), "name");
      var id := Get(RequestObject(request), "id");
      && (Convertible(name) ==>
            && x.status == 200 && x.sent == []
            && IsRpcError(x.body, MethodNotFound) && "result" !in x.body.fields
            && Get(Get(x.body, "error"), "message") == Str("Tool not found: " + ToStr(name)))
      && (!Convertible(name) ==> x == Exchange(500, InternalErrorEnvelope(id, TypeError(CannotConvert)), []))
  {
    var name := Get(Get(RequestObject(request), "params"), "name");
    assert Catalog.Lookup(name).None?;
  }

  /** A `tools/call` request is answered by `ToolsCall`. */
  lemma RouteToolsCall(request: Value, env: Env, rt: Runtime)
    requires Get(RequestObject(request), "method") == Str("tools/call")
    ensures var req := RequestObject(request);
      Route(request, env, rt) == ToolsCall(Get(req, "id"), Get(req, "params"), env, rt)
  {
  }

  /** The `result` of a result envelope and the `error` of an internal-error envelope. */
  lemma EnvelopeMembers(id: Value, result: Value, f: Fault)
    ensures Get(ResultEnvelope(id, result), "result") == result
    ensures Get(InternalErrorEnvelope(id, f), "error") ==
      Obj(map["code" := Num(-32603), "message" := Str("Internal error"), "data" := Str(FaultToStr(f))])
  {
  }

  /** `tools/call` of a known tool answers with what the tool returned: its result
      with status 200, or its fault with status 500. */
  lemma ToolsCallKnown(id: Value, params: Value, env: Env, rt: Runtime, tool: Catalog.Tool)
    requires Get(params, "name") == Str(Catalog.Name(tool))
    ensures var t := Dispatch(tool, env, rt, Or(Get(params, "arguments"), EmptyObject));
      ToolsCall(id, params, env, rt) ==
        match t.outcome
        case Ok(r) => Exchange(200, ResultEnvelope(id, ToolResultValue(r)), t.sent)
        case Throw(f) => Exchange(500, InternalErrorEnvelope(id, f), t.sent)
  {
    Catalog.LookupName(tool);
  }

  /** For a known tool the status tells a tool's own answer from a fault: status
      200 carries the tool result, status 500 carries -32603 "Internal error" with
      `String(err)` of the fault the tool threw, backing failures included. */
  lemma KnownToolOutcome(request: Value, env: Env, rt: Runtime, tool: Catalog.Tool)
    requires Get(RequestObject(request), "method") == Str("tools/call")
    requires Get(Get(RequestObject(request), "params"), "name") == Str(Catalog.Name(tool))
    ensures var x := Route(request, env, rt);
      var req := RequestObject(request);
      var args := Or(Get(Get(req, "params"), "arguments"), EmptyObject);
      var t := Dispatch(tool, env, rt, args);
      && x.sent == t.sent
      && (t.outcome.Ok? ==> x.status == 200 && Get(x.body, "result") == ToolResultValue(t.outcome.value))
      && (t.outcome.Throw? ==>
            && x.status == 500
            && Get(x.body, "error") == Obj(map["code" := Num(-32603), "message" := Str("Internal error"),
                                               "data" := Str(FaultToStr(t.outcome.fault))]))
  {
    var req := RequestObject(request);
    var params := Get(req, "params");
    var t := Dispatch(tool, env, rt, Or(Get(params, "arguments"), EmptyObject));
    RouteToolsCall(request, env, rt);
    ToolsCallKnown(Get(req, "id"), params, env, rt, tool);
    match t.outcome {
      case Ok(r) => EnvelopeMembers(Get(req, "id"), ToolResultValue(r), TypeError(""));
      case Throw(f) => EnvelopeMembers(Get(req, "id"), Null, f);
    }
  }

  /** A tool called without one of its required arguments answers, with status
      200, a result with `isError: true` and one text item, and sends nothing. */
  lemma MissingArgumentIsToolError(request: Value, env: Env, rt: Runtime, tool: Catalog.Tool, field: string)
    requires Get(RequestObject(request), "method") == Str("tools/call")
    requires Get(Get(RequestObject(request), "params"), "name") == Str(Catalog.Name(tool))
    requires field in Catalog.Required(tool)
    requires !Truthy(Get(Or(Get(Get(RequestObject(request), "params"), "arguments"), EmptyObject), field))
    ensures var x := Route(request, env, rt);
      var result := Get(x.body, "result");
      && x.status == 200 && x.sent == []
      && Get(result, "isError") == Bool(true)
      && Get(result, "content").Arr? && |Get(result, "content").items| == 1
  {
    var req := RequestObject(request);
    var args := Or(Get(Get(req, "params"), "arguments"), EmptyObject);
    var t := Dispatch(tool, env, rt, args);
    RefusalIffRequiredMissing(tool, env, rt, args);
    assert field in Catalog.Required(tool) && !Truthy(Get(args, field));
    assert t.outcome.Ok? && t.outcome.value.isError && t.sent == [] && |t.outcome.value.content| == 1;
    KnownToolOutcome(request, env, rt, tool);
    ToolResultValueMembers(t.outcome.value);
  }
}

=== FILE: js.dfy ===
/** The slice of JavaScript value semantics the server and the client depend on:
    values as `JSON.parse` produces them (plus `undefined`), truthiness, `typeof`,
    property reads, `String(v)`, and thrown errors. */
module Js {
  import opened Strings

  /** A JavaScript value. Numbers are integers; objects map their own property
      names to values (key order is not part of the model). `Fn(name)` is a
      built-in function: the code never builds one, but reading an inherited
      method such as `"x".search` yields one. */
  datatype Value =
    | Undefined
    | Null
    | Bool(b: bool)
    | Num(n: int)
    | Str(s: string)
    | Arr(items: seq<Value>)
    | Obj(fields: map<string, Value>)
    | Fn(name: string)

  /** `{}` */
  const EmptyObject: Value := Obj(map[])

  /** ECMAScript ToBoolean: `!!v`. */
  predicate Truthy(v: Value)
    ensures !Truthy(v) <==> v == Undefined || v == Null || v == Bool(false) || v == Num(0) || v == Str("")
  {
    match v
    case Undefined => false
    case Null => false
    case Bool(b) => b
    case Num(n) => n != 0
    case Str(s) => s != ""
    case Arr(_) => true
    case Obj(_) => true
    case Fn(_) => true
  }

  /** `typeof v === "object"` (true of `null` and of arrays as well, false of functions). */
  predicate IsObjectType(v: Value) {
    v.Null? || v.Arr? || v.Obj?
  }

  /** `v === null || v === undefined`: the values a property read throws on. */
  predicate IsNullish(v: Value) {
    v.Null? || v.Undefined?
  }

  /** The methods of `Object.prototype`, which every other value inherits as well
      (the `__proto__` accessor aside). */
  const ObjectMethods: set<string> := {
    "constructor", "hasOwnProperty", "isPrototypeOf", "propertyIsEnumerable",
    "toLocaleString", "toString", "valueOf",
    "__defineGetter__", "__defineSetter__", "__lookupGetter__", "__lookupSetter__"}

  /** The methods of `String.prototype` (ECMAScript 2023 with Annex B). */
  const StringMethods: set<string> := {
    "anchor", "at", "big", "blink", "bold", "charAt", "charCodeAt", "codePointAt",
    "concat", "endsWith", "fixed", "fontcolor", "fontsize", "includes", "indexOf",
    "isWellFormed", "italics", "lastIndexOf", "link", "localeCompare", "match",
    "matchAll", "normalize", "padEnd", "padStart", "repeat", "replace", "replaceAll",
    "search", "slice", "small", "split", "startsWith", "strike", "sub", "substr",
    "substring", "sup", "toLocaleLowerCase", "toLocaleUpperCase", "toLowerCase",
    "toUpperCase", "toWellFormed", "trim", "trimEnd", "trimLeft", "trimRight", "trimStart"}

  /** The methods of `Array.prototype` (ECMAScript 2023). */
  const ArrayMethods: set<string> := {
    "at", "concat", "copyWithin", "entries", "every", "fill", "filter", "find",
    "findIndex", "findLast", "findLastIndex", "flat", "flatMap", "forEach", "includes",
    "indexOf", "join", "keys", "lastIndexOf", "map", "pop", "push", "reduce",
    "reduceRight", "reverse", "shift", "slice", "some", "sort", "splice", "toReversed",
    "toSorted", "toSpliced", "unshift", "values", "with"}

  /** The methods of `Number.prototype`. */
  const NumberMethods: set<string> := {"toExponential", "toFixed", "toPrecision"}

  /** The methods of `Function.prototype`. */
  const FunctionMethods: set<string> := {"apply", "bind", "call"}

  /** The member `v` inherits under `key` from its prototype chain: a built-in
      method or `undefined`. A function's `name` is its own. */
  function Inherited(v: Value, key: string): (r: Value)
    ensures r == Undefined || r.Fn? || (v.Fn? && r == Str(v.name))
    ensures IsNullish(v) ==> r == Undefined
    ensures !IsNullish(v) && key in ObjectMethods ==> r == Fn(key)
  {
    var methods :=
      match v
      case Undefined => {}
      case Null => {}
      case Bool(_) => ObjectMethods
      case Num(_) => ObjectMethods + NumberMethods
      case Str(_) => ObjectMethods + StringMethods
      case Arr(_) => ObjectMethods + ArrayMethods
      case Obj(_) => ObjectMethods
      case Fn(_) => ObjectMethods + FunctionMethods;
    if v.Fn? && key == "name" then Str(v.name)
    else if key in methods then Fn(key)
    else Undefined
  }

  /** `v?.key`, and `v.key` or destructuring on a value that is not nullish: an own
      property of an object, else what the prototype chain supplies (`length` and
      array indices aside). */
  function Get(v: Value, key: string): (r: Value)
    ensures v.Obj? && key in v.fields ==> r == v.fields[key]
    ensures !(v.Obj? && key in v.fields) ==> r == Inherited(v, key)
    ensures IsNullish(v) ==> r == Undefined
  {
    if v.Obj? && key in v.fields then v.fields[key] else Inherited(v, key)
  }

  /** `a || b` */
  function Or(a: Value, b: Value): (r: Value)
    ensures Truthy(r) <==> Truthy(a) || Truthy(b)
  {
    if Truthy(a) then a else b
  }

  /** A thrown JavaScript error: an `Error` raised by the code itself, or a
      `TypeError` raised by the engine or by `fetch`. */
  datatype Fault = Error(message: string) | TypeError(message: string)

  /** The `name` of the error's constructor. */
  function FaultName(f: Fault): string {
    match f
    case Error(_) => "Error"
    case TypeError(_) => "TypeError"
  }

  /** `String(err)`, that is `Error.prototype.toString`: the name alone when the
      message is empty, else the name, a colon and a space, and the message. */
  function FaultToStr(f: Fault): (r: string)
    ensures f.message == "" ==> r == FaultName(f)
    ensures f.message != "" ==>
      && |r| == |FaultName(f)| + 2 + |f.message|
      && r[..|FaultName(f)|] == FaultName(f)
      && r[|r| - |f.message|..] == f.message
  {
    if f.message == "" then FaultName(f) else FaultName(f) + ": " + f.message
  }

  /** A computation that either returns a value or throws. */
  datatype Result<+T> = Ok(value: T) | Throw(fault: Fault)

  /** A strict property read `v.key`: throws on `null` and `undefined`. */
  function Read(v: Value, key: string): (r: Result<Value>)
    ensures r.Throw? <==> IsNullish(v)
    ensures r.Ok? ==> r.value == Get(v, key)
  {
    if IsNullish(v) then
      Throw(TypeError("Cannot read properties of " + ToStr(v) + " (reading '" + key + "')"))
    else Ok(Get(v, key))
  }

  /** The message V8 gives when `String(v)` finds no usable conversion. */
  const CannotConvert: string := "Cannot convert object to primitive value"

  /** `String(v)` does not throw. An object converts through `toString`; its
      inherited one gives "[object Object]", but an own `toString` member is not
      callable (objects reach the server through `JSON.parse`), and neither is an
      own `valueOf`, while the inherited `valueOf` returns the object itself, so
      the conversion throws. An array converts through `join`, that is, through
      each element that is not nullish. */
  predicate Convertible(v: Value)
    decreases v
  {
    match v
    case Arr(items) => forall i | 0 <= i < |items| :: IsNullish(items[i]) || Convertible(items[i])
    case Obj(fields) => "toString" !in fields
    case _ => true
  }

  /** The text `String(v)` gives when it does not throw; it is also what a
      template literal `${v}` inserts. */
  function ToStr(v: Value): (r: string)
    decreases v
    ensures v.Str? ==> r == v.s
    ensures v.Num? ==> |r| >= 1 && (v.n < 0 <==> r[0] == '-')
    ensures v.Num? && v.n >= 0 ==> (forall i :: 0 <= i < |r| ==> '0' <= r[i] <= '9') && DecimalValue(r) == v.n
    ensures v.Arr? && |v.items| == 1 && !IsNullish(v.items[0]) ==> r == ToStr(v.items[0])
    ensures v.Arr? && |v.items| == 1 && IsNullish(v.items[0]) ==> r == ""
  {
    match v
    case Undefined => "undefined"
    case Null => "null"
    case Bool(b) => if b then "true" else "false"
    case Num(n) =>
      if n >= 0 then NatToStrRoundTrip(n); IntToStr(n) else IntToStr(n)
    case Str(s) => s
    case Arr(items) =>
      Join(seq(|items|, i requires 0 <= i < |items| =>
                 if IsNullish(items[i]) then "" else ToStr(items[i])), ",")
    case Obj(_) => "[object Object]"
    case Fn(name) => "function " + name + "() { [native code] }"
  }

  /** `String(v)` with its failure: a `TypeError` exactly when `v` is not convertible. */
  function ToString(v: Value): (r: Result<string>)
    ensures r.Throw? <==> !Convertible(v)
    ensures r.Throw? ==> r.fault == TypeError(CannotConvert)
    ensures r.Ok? ==> r.value == ToStr(v)
  {
    if Convertible(v) then Ok(ToStr(v)) else Throw(TypeError(CannotConvert))
  }
}

=== FILE: n8n_client.dfy ===
/** The nine operations of the n8n client: the request each one builds, the guards
    it applies before sending, and (for the workflow listing) what it does with the
    reply. Percent-encoding of path segments and query values is not modelled: an
    id enters the path as `String(id)`. */
module N8nClient {
  import opened Optional
  import opened Strings
  import opened Js
  import opened Backend
  import opened Sequences
  import opened WorkflowFilter

  const WorkflowsPath: string := "/api/v1/workflows"
  const ExecutionsPath: string := "/api/v1/executions"

  /** The `type` of the single node of a workflow made by `createSimpleWorkflow`. */
  const ManualTriggerType: string := "n8n-nodes-base.manualTrigger"
  const ManualTriggerName: string := "When clicking ‘Execute workflow’"

  /** A parameter `options = {}` that is then destructured or read: `undefined`
      becomes `{}`, and `null` cannot be read from. */
  function OptionsBag(options: Value): (r: Result<Value>)
    ensures r.Throw? <==> options.Null?
    ensures r.Ok? ==> !IsNullish(r.value) && (options.Undefined? ==> r.value == EmptyObject)
    ensures r.Ok? && !options.Undefined? ==> r.value == options
  {
    if options.Undefined? then Ok(EmptyObject)
    else if options.Null? then Throw(TypeError("Cannot destructure 'options' as it is null."))
    else Ok(options)
  }

  // ---------------------------------------------------------------------------
  // listWorkflows
  // ---------------------------------------------------------------------------

  /** `Array.isArray(data.data) ? data.data : data`, for a `data` that is not nullish. */
  function SourceList(data: Value): Value {
    if Get(data, "data").Arr? then Get(data, "data") else data
  }

  /** The summaries of the workflows in `raw`. */
  function Summaries(raw: seq<Value>): (ws: seq<Summary>)
    ensures |ws| == |raw|
  {
    seq(|raw|, i requires 0 <= i < |raw| => Summarize(raw[i]))
  }

  /** What `listWorkflows` does with the parsed reply `data`. */
  function Listing(data: Value, search: Value, activeOnly: Value, limit: Value): (r: Result<seq<Summary>>)
    ensures r.Ok? ==>
      && !IsNullish(data)
      && SourceList(data).Arr?
      && (forall i :: 0 <= i < |SourceList(data).items| ==> !IsNullish(SourceList(data).items[i]))
      && Pipeline(Summaries(SourceList(data).items), search, activeOnly, limit) == r
    ensures !IsNullish(data) && SourceList(data).Arr?
            && (forall i :: 0 <= i < |SourceList(data).items| ==> !IsNullish(SourceList(data).items[i])) ==>
      r == Pipeline(Summaries(SourceList(data).items), search, activeOnly, limit)
  {
    match Read(data, "data")
    case Throw(f) => Throw(f)
    case Ok(inner) =>
      var raw := if inner.Arr? then inner else data;
      if !raw.Arr? then Throw(TypeError("rawWorkflows.map is not a function"))
      else
        match ProjectAll(raw.items)
        case Throw(f) => Throw(f)
        case Ok(ws) =>
          assert ws == Summaries(raw.items);
          Pipeline(ws, search, activeOnly, limit)
  }

  /** `activeOnly = false`: the default applies only when the option is `undefined`. */
  function ActiveOnlyOf(o: Value): (activeOnly: Value)
    ensures Truthy(activeOnly) <==> Truthy(Get(o, "activeOnly"))
    ensures !Get(o, "activeOnly").Undefined? ==> activeOnly == Get(o, "activeOnly")
  {
    if Get(o, "activeOnly").Undefined? then Bool(false) else Get(o, "activeOnly")
  }

  /** `listWorkflows(options)`: one GET of all workflows, then the filters. */
  function ListWorkflows(env: Env, rt: Runtime, options: Value): (t: Traced<seq<Summary>>)
    ensures options.Null? ==> t.outcome.Throw? && t.sent == []
    ensures !options.Null? ==> t.sent == CallN8N(env, rt, "GET", WorkflowsPath, None).sent
    ensures t.outcome.Ok? ==> !options.Null?
    ensures t.outcome.Ok? ==>
      var o := OptionsBag(options).value;
      var call := CallN8N(env, rt, "GET", WorkflowsPath, None);
      && call.outcome.Ok?
      && SourceList(call.outcome.value).Arr?
      && t.outcome.value == LimitStep(Select(Summaries(SourceList(call.outcome.value).items),
                                             CriteriaOf(Get(o, "search"), Get(o, "activeOnly"))),
                                      Get(o, "limit"))
    ensures !options.Null? ==>
      var o := OptionsBag(options).value;
      var call := CallN8N(env, rt, "GET", WorkflowsPath, None);
      && (call.outcome.Throw? ==> t.outcome == Throw(call.outcome.fault))
      && (call.outcome.Ok? ==> t.outcome == Listing(call.outcome.value, Get(o, "search"), ActiveOnlyOf(o), Get(o, "limit")))
  {
    match OptionsBag(options)
    case Throw(f) => Traced(Throw(f), [])
    case Ok(o) =>
      var search := Get(o, "search");
      var activeOnly := ActiveOnlyOf(o);
      var limit := Get(o, "limit");
      var call := CallN8N(env, rt, "GET", WorkflowsPath, None);
      match call.outcome
      case Throw(f) => Traced(Throw(f), call.sent)
      case Ok(data) =>
        var listed := Listing(data, search, activeOnly, limit);
        if listed.Ok? then
          assert CriteriaOf(search, activeOnly) == CriteriaOf(search, Get(o, "activeOnly"));
          PipelineIsFirstMatches(Summaries(SourceList(data).items), search, activeOnly, limit);
          Traced(listed, call.sent)
        else Traced(listed, call.sent)
  }

  /** Options given as a string never list anything: destructuring a string reads
      `search` from `String.prototype`, a function, so the search step throws
      (after the request, when the key is set). */
  lemma StringOptionsNeverList(env: Env, rt: Runtime, text: string)
    ensures Get(Str(text), "search") == Fn("search")
    ensures ListWorkflows(env, rt, Str(text)).outcome.Throw?
    ensures HasKey(env) ==> |ListWorkflows(env, rt, Str(text)).sent| == 1
  {
    assert "search" in StringMethods;
    var call := CallN8N(env, rt, "GET", WorkflowsPath, None);
    if call.outcome.Ok? {
      var data := call.outcome.value;
      var search := Get(Str(text), "search");
      assert Truthy(search) && !search.Str?;
    }
  }

  /** A successful listing is an order-preserving subsequence of the summaries of the
      workflows the backing API returned, each meeting the search and activity
      criteria; without a numeric limit it holds every workflow that meets them. */
  lemma ListWorkflowsReturnsMatches(env: Env, rt: Runtime, options: Value)
    requires ListWorkflows(env, rt, options).outcome.Ok?
    ensures HasKey(env)
    ensures var call := CallN8N(env, rt, "GET", WorkflowsPath, None);
      var o := OptionsBag(options).value;
      var c := CriteriaOf(Get(o, "search"), Get(o, "activeOnly"));
      var r := ListWorkflows(env, rt, options).outcome.value;
      && call.outcome.Ok?
      && SourceList(call.outcome.value).Arr?
      && var ws := Summaries(SourceList(call.outcome.value).items);
      && IsSubsequence(r, ws)
      && (forall i :: 0 <= i < |r| ==> Wanted(r[i], c))
      && (!Get(o, "limit").Num? ==> forall w :: w in ws && Wanted(w, c) ==> w in r)
      && r == LimitStep(Select(ws, c), Get(o, "limit"))
  {
    var o := OptionsBag(options).value;
    var activeOnly := ActiveOnlyOf(o);
    assert CriteriaOf(Get(o, "search"), activeOnly) == CriteriaOf(Get(o, "search"), Get(o, "activeOnly"));
    var data := CallN8N(env, rt, "GET", WorkflowsPath, None).outcome.value;
    PipelineProperties(Summaries(SourceList(data).items), Get(o, "search"), activeOnly, Get(o, "limit"));
  }

  // ---------------------------------------------------------------------------
  // Operations on one workflow or execution
  // ---------------------------------------------------------------------------

  /** `if (!id) throw new Error(missing)`, then one call to a path holding
      `encodeURIComponent(id)`, whose conversion of `id` to a string comes first. */
  function ById(env: Env, rt: Runtime, missing: string, id: Value, verb: string, path: string, body: Option<Value>): (t: Traced<Value>)
    ensures !Truthy(id) ==> t == Traced(Throw(Error(missing)), [])
    ensures Truthy(id) && !Convertible(id) ==> t == Traced(Throw(TypeError(CannotConvert)), [])
    ensures Truthy(id) && Convertible(id) && HasKey(env) ==>
      t.sent == [HttpRequest(verb, BaseUrl(env) + path, env.apiKey.value, body)]
    ensures Truthy(id) && Convertible(id) && !HasKey(env) ==> t == Traced(Throw(Error(MissingKeyMessage)), [])
    ensures Truthy(id) && Convertible(id) ==> t == CallN8N(env, rt, verb, path, body)
    ensures Relayed(rt, t)
  {
    if !Truthy(id) then Traced(Throw(Error(missing)), [])
    else if !Convertible(id) then Traced(Throw(TypeError(CannotConvert)), [])
    else CallN8N(env, rt, verb, path, body)
  }

  /** The path of one workflow, for an id `String` accepts. */
  function WorkflowPath(id: Value): string {
    "/api/v1/workflows/" + ToStr(id)
  }

  /** The path of one execution, for an id `String` accepts. */
  function ExecutionPath(id: Value): string {
    "/api/v1/executions/" + ToStr(id)
  }

  /** `getWorkflowById(id)` */
  function GetWorkflowById(env: Env, rt: Runtime, id: Value): (t: Traced<Value>)
    ensures Truthy(id) && Convertible(id) && HasKey(env) ==>
      t.sent == [HttpRequest("GET", BaseUrl(env) + WorkflowPath(id), env.apiKey.value, None)]
    ensures Truthy(id) && Convertible(id) ==> t == CallN8N(env, rt, "GET", WorkflowPath(id), None)
    ensures Relayed(rt, t)
  {
    ById(env, rt, "getWorkflowById: id manquant", id, "GET", WorkflowPath(id), None)
  }

  /** `deleteWorkflowById(id)` */
  function DeleteWorkflowById(env: Env, rt: Runtime, id: Value): (t: Traced<Value>)
    ensures Truthy(id) && Convertible(id) && HasKey(env) ==>
      t.sent == [HttpRequest("DELETE", BaseUrl(env) + WorkflowPath(id), env.apiKey.value, None)]
    ensures Truthy(id) && Convertible(id) ==> t == CallN8N(env, rt, "DELETE", WorkflowPath(id), None)
    ensures Relayed(rt, t)
  {
    ById(env, rt, "deleteWorkflowById: id manquant", id, "DELETE", WorkflowPath(id), None)
  }

  /** `updateWorkflowById(id, patch = {})`: the patch must be an object (or an array). */
  function UpdateWorkflowById(env: Env, rt: Runtime, id: Value, patch: Value): (t: Traced<Value>)
    ensures Truthy(id) && !patch.Undefined? && !(Truthy(patch) && IsObjectType(patch)) ==>
      t == Traced(Throw(Error("updateWorkflowById: patch doit être un objet")), [])
    ensures Truthy(id) && Convertible(id) && HasKey(env) && Truthy(patch) && IsObjectType(patch) ==>
      t.sent == [HttpRequest("PATCH", BaseUrl(env) + WorkflowPath(id), env.apiKey.value, Some(patch))]
    ensures Truthy(id) && Convertible(id) && HasKey(env) && patch.Undefined? ==>
      t.sent == [HttpRequest("PATCH", BaseUrl(env) + WorkflowPath(id), env.apiKey.value, Some(EmptyObject))]
    ensures Truthy(id) && Convertible(id) && (patch.Undefined? || (Truthy(patch) && IsObjectType(patch))) ==>
      t == CallN8N(env, rt, "PATCH", WorkflowPath(id), Some(if patch.Undefined? then EmptyObject else patch))
    ensures Relayed(rt, t)
  {
    var p := if patch.Undefined? then EmptyObject else patch;
    if Truthy(id) && (!Truthy(p) || !IsObjectType(p)) then
      Traced(Throw(Error("updateWorkflowById: patch doit être un objet")), [])
    else ById(env, rt, "updateWorkflowById: id manquant", id, "PATCH", WorkflowPath(id), Some(p))
  }

  /** The body `runWorkflow` sends: `payload` and `mode` when truthy, and no body at
      all when neither is. */
  function RunBody(payload: Value, mode: Value): (body: Option<Value>)
    ensures body.None? <==> !Truthy(payload) && !Truthy(mode)
    ensures body.Some? ==>
      && body.value.Obj?
      && body.value.fields.Keys <= {"payload", "mode"}
      && ("payload" in body.value.fields <==> Truthy(payload))
      && ("mode" in body.value.fields <==> Truthy(mode))
      && (Truthy(payload) ==> body.value.fields["payload"] == payload)
      && (Truthy(mode) ==> body.value.fields["mode"] == mode)
  {
    var withPayload: map<string, Value> := if Truthy(payload) then map["payload" := payload] else map[];
    var fields := if Truthy(mode) then withPayload["mode" := mode] else withPayload;
    assert Truthy(payload) ==> "payload" in fields;
    assert Truthy(mode) ==> "mode" in fields;
    if fields.Keys != {} then Some(Obj(fields)) else None
  }

  /** `runWorkflow(id, options = {})` */
  function RunWorkflow(env: Env, rt: Runtime, id: Value, options: Value): (t: Traced<Value>)
    ensures !Truthy(id) ==> t == Traced(Throw(Error("runWorkflow: id manquant")), [])
    ensures Truthy(id) && options.Null? ==> t.outcome.Throw? && t.sent == []
    ensures Truthy(id) && !options.Null? && !Convertible(id) ==> t == Traced(Throw(TypeError(CannotConvert)), [])
    ensures Truthy(id) && Convertible(id) && HasKey(env) && !options.Null? ==>
      var o := if options.Undefined? then EmptyObject else options;
      t.sent == [HttpRequest("POST", BaseUrl(env) + (WorkflowPath(id) + "/run"), env.apiKey.value,
                             RunBody(Get(o, "payload"), Get(o, "mode")))]
    ensures Truthy(id) && Convertible(id) && !options.Null? ==>
      var o := if options.Undefined? then EmptyObject else options;
      t == CallN8N(env, rt, "POST", WorkflowPath(id) + "/run", RunBody(Get(o, "payload"), Get(o, "mode")))
    ensures Relayed(rt, t)
  {
    if !Truthy(id) then Traced(Throw(Error("runWorkflow: id manquant")), [])
    else
      var o := if options.Undefined? then EmptyObject else options;
      match Read(o, "payload")
      case Throw(f) => Traced(Throw(f), [])
      case Ok(payload) =>
        if !Convertible(id) then Traced(Throw(TypeError(CannotConvert)), [])
        else CallN8N(env, rt, "POST", WorkflowPath(id) + "/run", RunBody(payload, Get(o, "mode")))
  }

  /** `getExecutionById(id)` */
  function GetExecutionById(env: Env, rt: Runtime, id: Value): (t: Traced<Value>)
    ensures Truthy(id) && Convertible(id) && HasKey(env) ==>
      t.sent == [HttpRequest("GET", BaseUrl(env) + ExecutionPath(id), env.apiKey.value, None)]
    ensures Truthy(id) && Convertible(id) ==> t == CallN8N(env, rt, "GET", ExecutionPath(id), None)
    ensures Relayed(rt, t)
  {
    ById(env, rt, "getExecutionById: id manquant", id, "GET", ExecutionPath(id), None)
  }

  /** `stopExecutionById(id)` */
  function StopExecutionById(env: Env, rt: Runtime, id: Value): (t: Traced<Value>)
    ensures Truthy(id) && Convertible(id) && HasKey(env) ==>
      t.sent == [HttpRequest("POST", BaseUrl(env) + (ExecutionPath(id) + "/stop"), env.apiKey.value, None)]
    ensures Truthy(id) && Convertible(id) ==> t == CallN8N(env, rt, "POST", ExecutionPath(id) + "/stop", None)
    ensures Relayed(rt, t)
  {
    ById(env, rt, "stopExecutionById: id manquant", id, "POST", ExecutionPath(id) + "/stop", None)
  }

  /** Every operation that takes an id throws on a falsy one, naming itself, and
      sends nothing. */
  lemma FalsyIdIsRejected(env: Env, rt: Runtime, id: Value, other: Value)
    requires !Truthy(id)
    ensures GetWorkflowById(env, rt, id) == Traced(Throw(Error("getWorkflowById: id manquant")), [])
    ensures DeleteWorkflowById(env, rt, id) == Traced(Throw(Error("deleteWorkflowById: id manquant")), [])
    ensures UpdateWorkflowById(env, rt, id, other) == Traced(Throw(Error("updateWorkflowById: id manquant")), [])
    ensures RunWorkflow(env, rt, id, other) == Traced(Throw(Error("runWorkflow: id manquant")), [])
    ensures GetExecutionById(env, rt, id) == Traced(Throw(Error("getExecutionById: id manquant")), [])
    ensures StopExecutionById(env, rt, id) == Traced(Throw(Error("stopExecutionById: id manquant")), [])
  {
  }

  /** An id `String` cannot convert (an object with an own `toString` member, or
      an array holding one) makes every id operation throw a `TypeError` once its
      other checks pass, before any request and whether or not the key is set. */
  lemma UnconvertibleIdIsRejected(env: Env, rt: Runtime, id: Value, patch: Value, options: Value)
    requires Truthy(id) && !Convertible(id)
    requires patch.Undefined? || (Truthy(patch) && IsObjectType(patch))
    requires !options.Null?
    ensures var rejected := Traced(Throw(TypeError(CannotConvert)), []);
      && GetWorkflowById(env, rt, id) == rejected
      && DeleteWorkflowById(env, rt, id) == rejected
      && UpdateWorkflowById(env, rt, id, patch) == rejected
      && RunWorkflow(env, rt, id, options) == rejected
      && GetExecutionById(env, rt, id) == rejected
      && StopExecutionById(env, rt, id) == rejected
  {
  }

  // ---------------------------------------------------------------------------
  // listExecutions
  // ---------------------------------------------------------------------------

  /** Where a query parameter stands in the order the source appends them. */
  function QueryRank(key: string): int {
    if key == "workflowId" then 0 else if key == "status" then 1 else if key == "limit" then 2 else 3
  }

  /** The names of the query parameters. */
  function QueryKeys(q: seq<(string, string)>): (ks: seq<string>)
    ensures |ks| == |q|
  {
    seq(|q|, i requires 0 <= i < |q| => q[i].0)
  }

  /** The parameters for three optional texts, in the source's order. */
  function QueryPairs(workflowId: Option<string>, status: Option<string>, limit: Option<string>): (q: seq<(string, string)>)
    ensures forall i, j :: 0 <= i < j < |q| ==> QueryRank(q[i].0) < QueryRank(q[j].0)
    ensures forall i :: 0 <= i < |q| ==>
      || (q[i].0 == "workflowId" && workflowId == Some(q[i].1))
      || (q[i].0 == "status" && status == Some(q[i].1))
      || (q[i].0 == "limit" && limit == Some(q[i].1))
    ensures "workflowId" in QueryKeys(q) <==> workflowId.Some?
    ensures "status" in QueryKeys(q) <==> status.Some?
    ensures "limit" in QueryKeys(q) <==> limit.Some?
  {
    var q := (if workflowId.Some? then [("workflowId", workflowId.value)] else [])
      + (if status.Some? then [("status", status.value)] else [])
      + (if limit.Some? then [("limit", limit.value)] else []);
    assert QueryKeys(q) == (if workflowId.Some? then ["workflowId"] else [])
      + (if status.Some? then ["status"] else [])
      + (if limit.Some? then ["limit"] else []);
    q
  }

  /** The parameters appended for the three filter values, in the source's order. */
  function QueryParams(workflowId: Value, status: Value, limit: Value): (q: seq<(string, string)>)
    ensures forall i, j :: 0 <= i < j < |q| ==> QueryRank(q[i].0) < QueryRank(q[j].0)
    ensures forall i :: 0 <= i < |q| ==>
      || (q[i].0 == "workflowId" && q[i].1 == ToStr(workflowId))
      || (q[i].0 == "status" && q[i].1 == ToStr(status))
      || (q[i].0 == "limit" && q[i].1 == ToStr(limit))
    ensures "workflowId" in QueryKeys(q) <==> Truthy(workflowId)
    ensures "status" in QueryKeys(q) <==> Truthy(status)
    ensures "limit" in QueryKeys(q) <==> limit.Num?
  {
    QueryPairs(if Truthy(workflowId) then Some(ToStr(workflowId)) else None,
               if Truthy(status) then Some(ToStr(status)) else None,
               if limit.Num? then Some(ToStr(limit)) else None)
  }

  /** The `URLSearchParams` of `listExecutions`: `workflowId` and `status` when
      truthy, `limit` when it is a number, each as `String(value)`; `append`
      converts its value, so a value `String` rejects throws. */
  function ExecutionsQuery(options: Value): (r: Result<seq<(string, string)>>)
    ensures r.Throw? <==>
      || (Truthy(Get(options, "workflowId")) && !Convertible(Get(options, "workflowId")))
      || (Truthy(Get(options, "status")) && !Convertible(Get(options, "status")))
    ensures r.Throw? ==> r.fault == TypeError(CannotConvert)
    ensures r.Ok? ==> var q := r.value;
      && (forall i, j :: 0 <= i < j < |q| ==> QueryRank(q[i].0) < QueryRank(q[j].0))
      && (forall i :: 0 <= i < |q| ==> QueryRank(q[i].0) < 3 && q[i].1 == ToStr(Get(options, q[i].0)))
      && ("workflowId" in QueryKeys(q) <==> Truthy(Get(options, "workflowId")))
      && ("status" in QueryKeys(q) <==> Truthy(Get(options, "status")))
      && ("limit" in QueryKeys(q) <==> Get(options, "limit").Num?)
  {
    var workflowId := Get(options, "workflowId");
    var status := Get(options, "status");
    if Truthy(workflowId) && !Convertible(workflowId) then Throw(TypeError(CannotConvert))
    else if Truthy(status) && !Convertible(status) then Throw(TypeError(CannotConvert))
    else Ok(QueryParams(workflowId, status, Get(options, "limit")))
  }

  /** `params.toString()`: `key=value` pairs joined by `&`. */
  function QueryString(q: seq<(string, string)>): string {
    Join(seq(|q|, i requires 0 <= i < |q| => q[i].0 + "=" + q[i].1), "&")
  }

  /** The query string is empty exactly when there are no parameters. */
  lemma {:induction false} QueryStringEmptyIff(q: seq<(string, string)>)
    ensures QueryString(q) == "" <==> q == []
  {
    if |q| >= 2 {
      var parts := seq(|q|, i requires 0 <= i < |q| => q[i].0 + "=" + q[i].1);
      assert |parts[0] + "&" + Join(parts[1..], "&")| > 0;
    }
  }

  /** The path `listExecutions` requests: a `?` and the query follow only when
      there is a parameter. */
  function ExecutionsListPath(q: seq<(string, string)>): (path: string)
    ensures q == [] ==> path == "/api/v1/executions"
    ensures q != [] ==> path == "/api/v1/executions?" + QueryString(q)
  {
    var query := QueryString(q);
    QueryStringEmptyIff(q);
    ExecutionsPath + (if query != "" then "?" + query else "")
  }

  /** `listExecutions(options = {})`: the filters travel as query parameters. */
  function ListExecutions(env: Env, rt: Runtime, options: Value): (t: Traced<Value>)
    ensures options.Null? ==> t.outcome.Throw? && t.sent == []
    ensures !options.Null? && ExecutionsQuery(OptionsBag(options).value).Throw? ==>
      t == Traced(Throw(TypeError(CannotConvert)), [])
    ensures !options.Null? && ExecutionsQuery(OptionsBag(options).value).Ok? && HasKey(env) ==>
      t.sent == [HttpRequest("GET", BaseUrl(env) + ExecutionsListPath(ExecutionsQuery(OptionsBag(options).value).value),
                             env.apiKey.value, None)]
    ensures !options.Null? && ExecutionsQuery(OptionsBag(options).value).Ok? ==>
      t == CallN8N(env, rt, "GET", ExecutionsListPath(ExecutionsQuery(OptionsBag(options).value).value), None)
    ensures Relayed(rt, t)
  {
    match OptionsBag(options)
    case Throw(f) => Traced(Throw(f), [])
    case Ok(o) =>
      match ExecutionsQuery(o)
      case Throw(f) => Traced(Throw(f), [])
      case Ok(q) => CallN8N(env, rt, "GET", ExecutionsListPath(q), None)
  }

  // ---------------------------------------------------------------------------
  // createSimpleWorkflow
  // ---------------------------------------------------------------------------

  /** The name `createSimpleWorkflow` accepts: the argument itself when it is a
      string, its `name` when it is an object; it must be a non-empty string. */
  function CreateName(input: Value): (r: Result<string>)
    ensures r.Ok? <==>
      || (input.Str? && input.s != "")
      || (Truthy(input) && IsObjectType(input) && Get(input, "name").Str? && Get(input, "name").s != "")
    ensures r.Ok? && input.Str? ==> r.value == input.s
    ensures r.Ok? && !input.Str? ==> Str(r.value) == Get(input, "name")
  {
    var name :=
      if input.Str? then Ok(input)
      else if Truthy(input) && IsObjectType(input) then Ok(Get(input, "name"))
      else Throw(Error("createSimpleWorkflow: argument requis (string name ou { name, active })"));
    match name
    case Throw(f) => Throw(f)
    case Ok(n) =>
      if !Truthy(n) || !n.Str? then Throw(Error("createSimpleWorkflow: name (string) est requis"))
      else Ok(n.s)
  }

  /** The body of a new workflow: one manual-trigger node, nothing connected. */
  function SimpleWorkflowBody(name: string): (body: Value)
    ensures body.Obj? && body.fields.Keys == {"name", "nodes", "connections", "settings", "tags"}
    ensures "active" !in body.fields
    ensures body.fields["name"] == Str(name)
    ensures var nodes := body.fields["nodes"];
      nodes.Arr? && |nodes.items| == 1 && Get(nodes.items[0], "type") == Str(ManualTriggerType)
    ensures body.fields["connections"] == EmptyObject
    ensures Get(body.fields["settings"], "executionOrder") == Str("v1")
    ensures body.fields["tags"] == Arr([])
  {
    var trigger := Obj(map[
      "parameters" := EmptyObject,
      "name" := Str(ManualTriggerName),
      "type" := Str(ManualTriggerType),
      "typeVersion" := Num(1),
      "position" := Arr([Num(0), Num(0)])]);
    Obj(map[
      "name" := Str(name),
      "nodes" := Arr([trigger]),
      "connections" := EmptyObject,
      "settings" := Obj(map["executionOrder" := Str("v1")]),
      "tags" := Arr([])])
  }

  /** `createSimpleWorkflow(input)`: a POST of the simple workflow body. */
  function CreateSimpleWorkflow(env: Env, rt: Runtime, input: Value): (t: Traced<Value>)
    ensures CreateName(input).Throw? ==> t == Traced(Throw(CreateName(input).fault), [])
    ensures CreateName(input).Ok? && HasKey(env) ==>
      t.sent == [HttpRequest("POST", BaseUrl(env) + WorkflowsPath, env.apiKey.value,
                             Some(SimpleWorkflowBody(CreateName(input).value)))]
    ensures CreateName(input).Ok? ==>
      t == CallN8N(env, rt, "POST", WorkflowsPath, Some(SimpleWorkflowBody(CreateName(input).value)))
    ensures Relayed(rt, t)
  {
    match CreateName(input)
    case Throw(f) => Traced(Throw(f), [])
    case Ok(name) => CallN8N(env, rt, "POST", WorkflowsPath, Some(SimpleWorkflowBody(name)))
  }
}

=== FILE: optional.dfy ===
/** The Some/None datatype used wherever the source has a value that may be absent. */
module Optional {

  datatype Option<+T> = None | Some(value: T)
}

=== FILE: sequences.dfy ===
/** Order-preserving subsequences. */
module Sequences {

  /** `a` is `b` with some elements left out, the rest kept in order. */
  predicate IsSubsequence<T(==)>(a: seq<T>, b: seq<T>)
    decreases |b|
  {
    || |a| == 0
    || (&& |b| > 0
        && ((a[0] == b[0] && IsSubsequence(a[1..], b[1..])) || IsSubsequence(a, b[1..])))
  }

  /** A prefix of a subsequence is a subsequence. */
  lemma {:induction false} PrefixIsSubsequence<T>(a: seq<T>, b: seq<T>, k: nat)
    requires k <= |a|
    requires IsSubsequence(a, b)
    ensures IsSubsequence(a[..k], b)
    decreases |b|
  {
    if k > 0 {
      if a[0] == b[0] && IsSubsequence(a[1..], b[1..]) {
        PrefixIsSubsequence(a[1..], b[1..], k - 1);
        assert a[..k][1..] == a[1..][..k - 1];
      } else {
        PrefixIsSubsequence(a, b[1..], k);
      }
    }
  }
}

=== FILE: strings.dfy ===
/** The string operations of the ECMAScript library that the client relies on:
    `toLowerCase`, `includes`, `trim`, `String(n)` of an integer, and `join`. */
module Strings {

  /** Lower-cases one character. Only the 26 ASCII capitals are mapped. */
  function LowerChar(c: char): (d: char)
    ensures !('A' <= d <= 'Z')
    ensures 'a' <= c <= 'z' ==> d == c
  {
    if 'A' <= c <= 'Z' then (c as int + 32) as char else c
  }

  /** `s.toLowerCase()`, character by character. */
  function Lower(s: string): (r: string)
    ensures |r| == |s|
    ensures forall i :: 0 <= i < |r| ==> !('A' <= r[i] <= 'Z')
  {
    seq(|s|, i requires 0 <= i < |s| => LowerChar(s[i]))
  }

  /** `needle` occurs in `hay` starting at index `i`. */
  predicate OccursAt(hay: string, needle: string, i: int) {
    0 <= i && i + |needle| <= |hay| && hay[i..i + |needle|] == needle
  }

  /** `hay.includes(needle)`. */
  predicate Includes(hay: string, needle: string) {
    exists i | 0 <= i <= |hay| - |needle| :: OccursAt(hay, needle, i)
  }

  /** A piece of a concatenation is included in it. */
  lemma IncludesPiece(a: string, b: string, c: string)
    ensures Includes(a + b + c, b)
  {
    assert (a + b + c)[|a|..|a| + |b|] == b;
    assert OccursAt(a + b + c, b, |a|);
  }

  /** Text included in `s` stays included when something is put in front. */
  lemma IncludesAfterPrefix(p: string, s: string, needle: string)
    requires Includes(s, needle)
    ensures Includes(p + s, needle)
  {
    var i :| 0 <= i <= |s| - |needle| && OccursAt(s, needle, i);
    assert (p + s)[|p| + i..|p| + i + |needle|] == s[i..i + |needle|];
    assert OccursAt(p + s, needle, |p| + i);
  }

  /** The characters `trim` removes: ECMAScript WhiteSpace and LineTerminator. */
  predicate IsWhiteSpace(c: char) {
    || c == '\t' || c == '\n' || c == '\U{000B}' || c == '\U{000C}' || c == '\r'
    || c == ' ' || c == '\U{00A0}' || c == '\U{1680}'
    || ('\U{2000}' <= c <= '\U{200A}')
    || c == '\U{2028}' || c == '\U{2029}' || c == '\U{202F}' || c == '\U{205F}'
    || c == '\U{3000}' || c == '\U{FEFF}'
  }

  /** Every character of `s` is white space (the empty string included). */
  predicate IsBlank(s: string) {
    forall i :: 0 <= i < |s| ==> IsWhiteSpace(s[i])
  }

  /** Drops the leading white space. */
  function TrimStart(s: string): (r: string)
    ensures |r| <= |s| && r == s[|s| - |r|..]
    ensures IsBlank(s[..|s| - |r|])
    ensures r == [] || !IsWhiteSpace(r[0])
  {
    if |s| > 0 && IsWhiteSpace(s[0]) then
      var r := TrimStart(s[1..]);
      assert s[..|s| - |r|] == [s[0]] + s[1..][..|s| - 1 - |r|];
      r
    else s
  }

  /** Drops the trailing white space. */
  function TrimEnd(s: string): (r: string)
    ensures |r| <= |s| && r == s[..|r|]
    ensures IsBlank(s[|r|..])
    ensures r == [] || !IsWhiteSpace(r[|r| - 1])
  {
    if |s| > 0 && IsWhiteSpace(s[|s| - 1]) then
      var r := TrimEnd(s[..|s| - 1]);
      assert s[|r|..] == s[..|s| - 1][|r|..] + [s[|s| - 1]];
      r
    else s
  }

  /** `s.trim()`. */
  function Trim(s: string): (r: string)
    ensures r == [] || (!IsWhiteSpace(r[0]) && !IsWhiteSpace(r[|r| - 1]))
  {
    TrimEnd(TrimStart(s))
  }

  /** `s.trim()` is the empty string exactly when `s` is blank. */
  lemma TrimEmptyIffBlank(s: string)
    ensures Trim(s) == [] <==> IsBlank(s)
  {
    var t := TrimStart(s);
    if Trim(s) == [] {
      assert t[0..] == t;
      assert t == [];
      assert s[..|s|] == s;
    } else {
      var k := |s| - |t|;
      assert t != [];
      assert s[k] == t[0];
    }
  }

  /** The decimal digit for `d`. */
  function Digit(d: nat): (c: char)
    requires d < 10
    ensures '0' <= c <= '9'
  {
    "0123456789"[d]
  }

  /** Reading a digit back gives its value. */
  lemma DigitValue(d: nat)
    requires d < 10
    ensures Digit(d) as int - '0' as int == d
  {
  }

  /** `String(n)` of a non-negative integer: its decimal digits, no leading zero. */
  function NatToStr(n: nat): (r: string)
    ensures |r| >= 1
    ensures forall i :: 0 <= i < |r| ==> '0' <= r[i] <= '9'
    ensures |r| > 1 ==> r[0] != '0'
  {
    if n < 10 then [Digit(n)] else NatToStr(n / 10) + [Digit(n % 10)]
  }

  /** `String(n)` of an integer. */
  function IntToStr(n: int): (r: string)
    ensures |r| >= 1
    ensures n < 0 <==> r[0] == '-'
  {
    if n < 0 then "-" + NatToStr(-n) else NatToStr(n)
  }

  /** The value of a string of decimal digits. */
  function DecimalValue(s: string): nat
    requires forall i :: 0 <= i < |s| ==> '0' <= s[i] <= '9'
  {
    if |s| == 0 then 0 else DecimalValue(s[..|s| - 1]) * 10 + (s[|s| - 1] as int - '0' as int)
  }

  /** Reading back the digits `NatToStr` writes gives the number. */
  lemma {:induction false} NatToStrRoundTrip(n: nat)
    ensures DecimalValue(NatToStr(n)) == n
  {
    if n >= 10 {
      NatToStrRoundTrip(n / 10);
      var r := NatToStr(n);
      assert r[..|r| - 1] == NatToStr(n / 10);
      assert r[|r| - 1] == Digit(n % 10);
      DigitValue(n % 10);
      assert DecimalValue(r) == (n / 10) * 10 + n % 10;
    }
  }

  /** `parts.join(sep)`. */
  function Join(parts: seq<string>, sep: string): (r: string)
    ensures |parts| == 1 ==> r == parts[0]
  {
    if |parts| == 0 then ""
    else if |parts| == 1 then parts[0]
    else parts[0] + sep + Join(parts[1..], sep)
  }

  /** Every part of `parts.join("")` is included in it. */
  lemma {:induction false} JoinIncludesParts(parts: seq<string>, k: nat)
    requires k < |parts|
    ensures Includes(Join(parts, ""), parts[k])
  {
    if |parts| == 1 {
      IncludesPiece("", parts[0], "");
      assert "" + parts[0] + "" == Join(parts, "");
    } else if k == 0 {
      IncludesPiece("", parts[0], Join(parts[1..], ""));
      assert "" + parts[0] + Join(parts[1..], "") == Join(parts, "");
    } else {
      JoinIncludesParts(parts[1..], k - 1);
      IncludesAfterPrefix(parts[0], Join(parts[1..], ""), parts[k]);
      assert parts[0] + Join(parts[1..], "") == Join(parts, "");
    }
  }
}

=== FILE: tool_catalog.dfy ===
/** The closed set of nine tools: their names, the catalog `tools/list` returns,
    and the lookup `tools/call` performs on a tool name. */
module ToolCatalog {
  import opened Optional
  import opened Js

  datatype Tool =
    | ListWorkflows | GetWorkflow | CreateWorkflow | UpdateWorkflow | DeleteWorkflow
    | RunWorkflow | ListExecutions | GetExecution | StopExecution

  /** Every tool, in the order of the catalog and of the dispatch chain. */
  const AllTools: seq<Tool> :=
    [ListWorkflows, GetWorkflow, CreateWorkflow, UpdateWorkflow, DeleteWorkflow,
     RunWorkflow, ListExecutions, GetExecution, StopExecution]

  /** The name a client calls a tool by. */
  function Name(t: Tool): string {
    match t
    case ListWorkflows => "list_workflows"
    case GetWorkflow => "get_workflow"
    case CreateWorkflow => "create_workflow"
    case UpdateWorkflow => "update_workflow"
    case DeleteWorkflow => "delete_workflow"
    case RunWorkflow => "run_workflow"
    case ListExecutions => "list_executions"
    case GetExecution => "get_execution"
    case StopExecution => "stop_execution"
  }

  /** The `toolName === "..."` chain of `tools/call`: strict equality with one of
      the nine names, `None` for anything else (including non-strings). */
  function Lookup(toolName: Value): (r: Option<Tool>)
    ensures r.Some? ==> toolName == Str(Name(r.value))
    ensures r.None? ==> forall t: Tool :: toolName != Str(Name(t))
  {
    if toolName == Str("list_workflows") then Some(ListWorkflows)
    else if toolName == Str("get_workflow") then Some(GetWorkflow)
    else if toolName == Str("create_workflow") then Some(CreateWorkflow)
    else if toolName == Str("update_workflow") then Some(UpdateWorkflow)
    else if toolName == Str("delete_workflow") then Some(DeleteWorkflow)
    else if toolName == Str("run_workflow") then Some(RunWorkflow)
    else if toolName == Str("list_executions") then Some(ListExecutions)
    else if toolName == Str("get_execution") then Some(GetExecution)
    else if toolName == Str("stop_execution") then Some(StopExecution)
    else None
  }

  /** Looking a tool up by its own name finds that tool: names are unambiguous. */
  lemma LookupName(t: Tool)
    ensures Lookup(Str(Name(t))) == Some(t)
  {
  }

  /** The primitive type tag of an input field. */
  datatype FieldType = StringField | NumberField | BooleanField | ObjectField

  datatype Field = Field(name: string, kind: FieldType, description: string)

  /** A tool definition: its name, description and input schema (the fields and
      which of them are required). */
  datatype ToolDef = ToolDef(name: string, description: string, fields: seq<Field>, required: seq<string>)

  /** The field names of a definition. */
  function FieldNames(fields: seq<Field>): (names: set<string>)
    ensures forall i :: 0 <= i < |fields| ==> fields[i].name in names
    ensures forall n :: n in names ==> exists i :: 0 <= i < |fields| && fields[i].name == n
  {
    set i | 0 <= i < |fields| :: fields[i].name
  }

  /** The position of each tool in `AllTools`. */
  function Index(t: Tool): (i: nat)
    ensures i < |AllTools| && AllTools[i] == t
  {
    match t
    case ListWorkflows => 0
    case GetWorkflow => 1
    case CreateWorkflow => 2
    case UpdateWorkflow => 3
    case DeleteWorkflow => 4
    case RunWorkflow => 5
    case ListExecutions => 6
    case GetExecution => 7
    case StopExecution => 8
  }

  /** The human description of each tool. */
  function Description(t: Tool): string {
    match t
    case ListWorkflows => "Liste les workflows n8n (id, nom, état, dates)."
    case GetWorkflow => "Récupère le JSON complet d’un workflow par son id."
    case CreateWorkflow => "Crée un workflow n8n simple avec un Manual Trigger."
    case UpdateWorkflow => "Met à jour un workflow n8n (patch JSON ou workflow complet)."
    case DeleteWorkflow => "Supprime un workflow n8n par son ID."
    case RunWorkflow => "Exécute un workflow n8n par son ID (API /api/v1/workflows/:id/run)."
    case ListExecutions => "Liste les exécutions n8n (filtrable par workflow, status, limit)."
    case GetExecution => "Récupère les détails d’une exécution par ID."
    case StopExecution => "Stoppe une exécution n8n par son ID."
  }

  /** The input fields of each tool, in declaration order. */
  function Fields(t: Tool): seq<Field> {
    match t
    case ListWorkflows =>
      [Field("search", StringField, "Filtre sur le nom du workflow"),
       Field("activeOnly", BooleanField, "Filtrer uniquement les workflows actifs"),
       Field("limit", NumberField, "Limiter le nombre de résultats")]
    case GetWorkflow =>
      [Field("id", StringField, "ID du workflow")]
    case CreateWorkflow =>
      [Field("name", StringField, "Nom du workflow"),
       Field("active", BooleanField, "Activer le workflow après création")]
    case UpdateWorkflow =>
      [Field("id", StringField, "ID du workflow"),
       Field("patch", ObjectField, "Patch partiel (par ex. { active: true }) ou JSON complet."),
       Field("workflow", ObjectField, "Alternative à patch: workflow complet à envoyer.")]
    case DeleteWorkflow =>
      [Field("id", StringField, "ID du workflow à supprimer")]
    case RunWorkflow =>
      [Field("id", StringField, "ID du workflow à exécuter"),
       Field("payload", ObjectField, "Données à injecter dans le workflow (optionnel)"),
       Field("mode", StringField, "Mode d'exécution (ex: 'manual')")]
    case ListExecutions =>
      [Field("workflowId", StringField, "Filtrer par ID de workflow"),
       Field("status", StringField, "Filtrer par statut (ex: success, error, waiting)"),
       Field("limit", NumberField, "Limiter le nombre de résultats")]
    case GetExecution =>
      [Field("id", StringField, "ID de l'exécution")]
    case StopExecution =>
      [Field("id", StringField, "ID de l'exécution à stopper")]
  }

  /** The required input fields of each tool. */
  function Required(t: Tool): seq<string> {
    match t
    case ListWorkflows => []
    case GetWorkflow => ["id"]
    case CreateWorkflow => ["name"]
    case UpdateWorkflow => ["id"]
    case DeleteWorkflow => ["id"]
    case RunWorkflow => ["id"]
    case ListExecutions => []
    case GetExecution => ["id"]
    case StopExecution => ["id"]
  }

  /** The definition `tools/list` advertises for each tool. */
  function Definition(t: Tool): ToolDef {
    ToolDef(Name(t), Description(t), Fields(t), Required(t))
  }

  /** The catalog, in the order `tools/list` returns it. */
  function Catalog(): (c: seq<ToolDef>)
    ensures |c| == |AllTools|
    ensures forall i :: 0 <= i < |c| ==> c[i] == Definition(AllTools[i])
  {
    seq(|AllTools|, i requires 0 <= i < |AllTools| => Definition(AllTools[i]))
  }

  /** No two tools share a name. */
  lemma NamesDistinct(t1: Tool, t2: Tool)
    ensures Name(t1) == Name(t2) ==> t1 == t2
  {
    LookupName(t1);
    LookupName(t2);
  }

  /** Each tool's required fields are among its declared fields. */
  lemma RequiredDeclared(t: Tool)
    ensures forall r :: r in Required(t) ==> r in FieldNames(Fields(t))
  {
    assert Required(t) == [] || Required(t) == [Fields(t)[0].name];
  }

  /** The catalog is well formed: nine tools with pairwise distinct names, and
      every required field among the declared fields. */
  lemma CatalogWellFormed()
    ensures |Catalog()| == 9
    ensures forall i, j :: 0 <= i < j < |Catalog()| ==> Catalog()[i].name != Catalog()[j].name
    ensures forall i :: 0 <= i < |Catalog()| ==>
      forall r :: r in Catalog()[i].required ==> r in FieldNames(Catalog()[i].fields)
  {
    var c := Catalog();
    forall i, j | 0 <= i < j < |c|
      ensures c[i].name != c[j].name
    {
      AllToolsDistinct(i, j);
      NamesDistinct(AllTools[i], AllTools[j]);
    }
    forall i | 0 <= i < |c|
      ensures forall r :: r in c[i].required ==> r in FieldNames(c[i].fields)
    {
      assert c[i] == Definition(AllTools[i]);
      RequiredDeclared(AllTools[i]);
    }
  }

  /** `AllTools` lists each tool once. */
  lemma AllToolsDistinct(i: nat, j: nat)
    requires i < j < |AllTools|
    ensures AllTools[i] != AllTools[j]
  {
  }

  /** The catalog matches dispatch exactly: every advertised name is dispatched
      to its own tool, and every name that dispatches is advertised. */
  lemma CatalogMatchesDispatch()
    ensures forall i :: 0 <= i < |Catalog()| ==> Lookup(Str(Catalog()[i].name)) == Some(AllTools[i])
    ensures forall v: Value :: Lookup(v).Some? ==> exists i :: 0 <= i < |Catalog()| && v == Str(Catalog()[i].name)
  {
    var c := Catalog();
    forall i | 0 <= i < |c|
      ensures Lookup(Str(c[i].name)) == Some(AllTools[i])
    {
      LookupName(AllTools[i]);
    }
    forall v: Value | Lookup(v).Some?
      ensures exists i :: 0 <= i < |c| && v == Str(c[i].name)
    {
      var i := Index(Lookup(v).value);
      assert v == Str(c[i].name);
    }
  }

  /** The JSON-schema type name of a field type. */
  function TypeName(k: FieldType): string {
    match k
    case StringField => "string"
    case NumberField => "number"
    case BooleanField => "boolean"
    case ObjectField => "object"
  }

  /** The `properties` object of a schema: one `{ type, description }` per field. */
  function PropertiesValue(fields: seq<Field>): (m: map<string, Value>)
    ensures m.Keys == FieldNames(fields)
  {
    if |fields| == 0 then map[]
    else
      var f := fields[|fields| - 1];
      var m := PropertiesValue(fields[..|fields| - 1]);
      FieldNamesSnoc(fields);
      m[f.name := Obj(map["type" := Str(TypeName(f.kind)), "description" := Str(f.description)])]
  }

  /** The names of a non-empty field list: those of all but the last, plus the last. */
  lemma FieldNamesSnoc(fields: seq<Field>)
    requires |fields| > 0
    ensures FieldNames(fields) == FieldNames(fields[..|fields| - 1]) + {fields[|fields| - 1].name}
  {
    var init := fields[..|fields| - 1];
    forall n | n in FieldNames(fields)
      ensures n in FieldNames(init) + {fields[|fields| - 1].name}
    {
      var i :| 0 <= i < |fields| && fields[i].name == n;
      if i < |fields| - 1 {
        assert init[i] == fields[i];
      }
    }
    forall n | n in FieldNames(init)
      ensures n in FieldNames(fields)
    {
      var i :| 0 <= i < |init| && init[i].name == n;
      assert fields[i] == init[i];
    }
  }

  /** A definition as the object `tools/list` sends. */
  function DefinitionValue(d: ToolDef): (v: Value)
    ensures Get(v, "name") == Str(d.name)
    ensures var schema := Get(v, "inputSchema");
      && Get(schema, "type") == Str("object")
      && Get(schema, "properties").Obj?
      && Get(schema, "properties").fields.Keys == FieldNames(d.fields)
      && Get(schema, "required") == Arr(seq(|d.required|, i requires 0 <= i < |d.required| => Str(d.required[i])))
  {
    Obj(map[
      "name" := Str(d.name),
      "description" := Str(d.description),
      "inputSchema" := Obj(map[
        "type" := Str("object"),
        "properties" := Obj(PropertiesValue(d.fields)),
        "required" := Arr(seq(|d.required|, i requires 0 <= i < |d.required| => Str(d.required[i])))])])
  }

  /** The `tools` array of the `tools/list` result. */
  function CatalogValue(): (v: Value)
    ensures v.Arr? && |v.items| == |Catalog()|
    ensures forall i :: 0 <= i < |v.items| ==> v.items[i] == DefinitionValue(Catalog()[i])
  {
    Arr(seq(|Catalog()|, i requires 0 <= i < |Catalog()| => DefinitionValue(Catalog()[i])))
  }

  /** What a client sees in `tools/list`: nine entries with distinct names, and in
      each entry every `required` name is a key of `properties`. */
  lemma CatalogValueWellFormed()
    ensures var v := CatalogValue();
      && |v.items| == 9
      && (forall i, j :: 0 <= i < j < 9 ==> Get(v.items[i], "name") != Get(v.items[j], "name"))
      && (forall i :: 0 <= i < 9 ==>
            var schema := Get(v.items[i], "inputSchema");
            var required := Get(schema, "required");
            && required.Arr?
            && forall k :: 0 <= k < |required.items| ==>
                 required.items[k].Str? && required.items[k].s in Get(schema, "properties").fields)
  {
    CatalogWellFormed();
  }
}

=== FILE: tools.dfy ===
/** The nine tool wrappers of the HTTP server: each checks its arguments, makes at
    most one client call, and wraps the client's result as a tool result. A
    wrapper does not catch: a fault thrown by the client leaves the wrapper as a
    fault. */
module Tools {
  import opened Optional
  import opened Js
  import opened Backend
  import opened WorkflowFilter
  import Client = N8nClient
  import Catalog = ToolCatalog

  /** One `{ type: "text", text }` item. */
  datatype Content = Text(text: string)

  /** `{ content, isError }` */
  datatype ToolResult = ToolResult(content: seq<Content>, isError: bool)

  /** A tool result as the object placed in the response. */
  function ToolResultValue(r: ToolResult): Value {
    Obj(map[
      "content" := Arr(seq(|r.content|, i requires 0 <= i < |r.content| =>
                         Obj(map["type" := Str("text"), "text" := Str(r.content[i].text)]))),
      "isError" := Bool(r.isError)])
  }

  /** The `content` and `isError` members of the placed object. */
  lemma ToolResultValueMembers(r: ToolResult)
    ensures var v := ToolResultValue(r);
      && Get(v, "isError") == Bool(r.isError)
      && Get(v, "content").Arr? && |Get(v, "content").items| == |r.content|
  {
  }

  /** The failure a wrapper reports itself, without calling the backing API. */
  function Refusal(message: string): ToolResult {
    ToolResult([Text(message)], true)
  }

  /** The message for a missing or falsy `id`. */
  function MissingId(t: Catalog.Tool): string {
    "Erreur: paramètre 'id' manquant pour " + Catalog.Name(t)
  }

  const MissingName: string := "Erreur: paramètre 'name' manquant pour create_workflow"
  const MissingPayload: string := "Erreur: paramètre 'patch' ou 'workflow' (objet) requis pour update_workflow"

  /** A client outcome as a tool outcome: a value becomes its JSON text as the
      single item of a successful tool result; a fault passes through unchanged. */
  function Relay(rt: Runtime, r: Result<Value>): (w: Result<ToolResult>)
    ensures r.Throw? ==> w == Throw(r.fault)
    ensures r.Ok? ==> w == Ok(ToolResult([Text(rt.stringify(r.value))], false))
  {
    match r
    case Throw(f) => Throw(f)
    case Ok(v) => Ok(ToolResult([Text(rt.stringify(v))], false))
  }

  /** Wraps a client result: `JSON.stringify` of its value in one text item with
      `isError: false`; a fault is not caught. */
  function Wrap(rt: Runtime, t: Traced<Value>): (w: Traced<ToolResult>)
    ensures w.sent == t.sent
    ensures t.outcome.Throw? ==> w.outcome == Throw(t.outcome.fault)
    ensures t.outcome.Ok? ==> w.outcome == Ok(ToolResult([Text(rt.stringify(t.outcome.value))], false))
  {
    Traced(Relay(rt, t.outcome), t.sent)
  }

  /** The discipline every wrapper keeps: at most one backing call; a tool result
      has one text item; a refusal (`isError`) makes no call, and a success made
      exactly one. */
  predicate Disciplined(t: Traced<ToolResult>) {
    && |t.sent| <= 1
    && (t.outcome.Ok? ==> |t.outcome.value.content| == 1)
    && (t.outcome.Ok? && t.outcome.value.isError ==> t.sent == [])
    && (t.outcome.Ok? && !t.outcome.value.isError ==> |t.sent| == 1)
  }

  /** A tool that made its one request answers with the client's answer to it:
      an ok reply becomes a successful result holding the reply's JSON text, any
      other outcome leaves the tool as a fault; and a success made one request. */
  predicate RelaysReply(rt: Runtime, t: Traced<ToolResult>) {
    && (t.outcome.Ok? && !t.outcome.value.isError ==> |t.sent| == 1)
    && (|t.sent| == 1 ==> t.outcome == Relay(rt, Answer(rt, t.sent[0])))
  }

  /** The summaries of a listing, as the array the tool serialises. */
  function SummariesValue(ws: seq<Summary>): (v: Value)
    ensures v.Arr? && |v.items| == |ws|
    ensures forall i :: 0 <= i < |ws| ==> v.items[i] == SummaryValue(ws[i])
  {
    Arr(seq(|ws|, i requires 0 <= i < |ws| => SummaryValue(ws[i])))
  }

  /** `tool_list_workflows(args)` */
  function ListWorkflowsTool(env: Env, rt: Runtime, args: Value): (t: Traced<ToolResult>)
    ensures Disciplined(t)
    ensures t.outcome.Ok? ==> !t.outcome.value.isError
    ensures !args.Null? && HasKey(env) ==>
      t.sent == [HttpRequest("GET", BaseUrl(env) + Client.WorkflowsPath, env.apiKey.value, None)]
    ensures var listed := Client.ListWorkflows(env, rt, args);
      && (t.outcome.Ok? <==> listed.outcome.Ok?)
      && (t.outcome.Ok? ==> t.outcome.value.content == [Text(rt.stringify(SummariesValue(listed.outcome.value)))])
  {
    var listed := Client.ListWorkflows(env, rt, args);
    var asValue := match listed.outcome
      case Throw(f) => Throw(f)
      case Ok(ws) => Ok(SummariesValue(ws));
    Wrap(rt, Traced(asValue, listed.sent))
  }

  /** The wrappers of the five operations that only take an `id`. */
  function IdTool(env: Env, rt: Runtime, tool: Catalog.Tool, args: Value): (t: Traced<ToolResult>)
    requires tool in {Catalog.GetWorkflow, Catalog.DeleteWorkflow, Catalog.GetExecution, Catalog.StopExecution}
    ensures Disciplined(t)
    ensures !Truthy(Get(args, "id")) ==> t == Traced(Ok(Refusal(MissingId(tool))), [])
    ensures Truthy(Get(args, "id")) ==> t.outcome.Ok? ==> !t.outcome.value.isError
    ensures Truthy(Get(args, "id")) && !Convertible(Get(args, "id")) ==> t == Traced(Throw(TypeError(CannotConvert)), [])
    ensures var id := Get(args, "id");
      Truthy(id) && Convertible(id) && HasKey(env) ==>
        var key := env.apiKey.value;
        && (tool == Catalog.GetWorkflow ==>
              t.sent == [HttpRequest("GET", BaseUrl(env) + Client.WorkflowPath(id), key, None)])
        && (tool == Catalog.DeleteWorkflow ==>
              t.sent == [HttpRequest("DELETE", BaseUrl(env) + Client.WorkflowPath(id), key, None)])
        && (tool == Catalog.GetExecution ==>
              t.sent == [HttpRequest("GET", BaseUrl(env) + Client.ExecutionPath(id), key, None)])
        && (tool == Catalog.StopExecution ==>
              t.sent == [HttpRequest("POST", BaseUrl(env) + (Client.ExecutionPath(id) + "/stop"), key, None)])
    ensures RelaysReply(rt, t)
  {
    var id := Get(args, "id");
    if !Truthy(id) then Traced(Ok(Refusal(MissingId(tool))), [])
    else
      var call :=
        match tool
        case GetWorkflow => Client.GetWorkflowById(env, rt, id)
        case DeleteWorkflow => Client.DeleteWorkflowById(env, rt, id)
        case GetExecution => Client.GetExecutionById(env, rt, id)
        case StopExecution => Client.StopExecutionById(env, rt, id);
      Wrap(rt, call)
  }

  /** `createSimpleWorkflow({ name, active: !!active })` for a truthy `name`. */
  function CreateCall(env: Env, rt: Runtime, name: Value, active: Value): (t: Traced<Value>)
    requires Truthy(name)
    ensures |t.sent| <= 1
    ensures !name.Str? ==> t.outcome.Throw? && t.sent == []
    ensures name.Str? && HasKey(env) ==>
      t.sent == [HttpRequest("POST", BaseUrl(env) + Client.WorkflowsPath, env.apiKey.value,
                             Some(Client.SimpleWorkflowBody(name.s)))]
    ensures Relayed(rt, t)
  {
    var input := Obj(map["name" := name, "active" := Bool(Truthy(active))]);
    assert Get(input, "name") == name;
    assert name.Str? ==> Client.CreateName(input) == Ok(name.s);
    assert !name.Str? ==> Client.CreateName(input).Throw?;
    Client.CreateSimpleWorkflow(env, rt, input)
  }

  /** `tool_create_workflow(args)`: `createSimpleWorkflow({ name, active: !!active })`. */
  function CreateWorkflowTool(env: Env, rt: Runtime, args: Value): (t: Traced<ToolResult>)
    ensures Disciplined(t)
    ensures !Truthy(Get(args, "name")) ==> t == Traced(Ok(Refusal(MissingName)), [])
    ensures Truthy(Get(args, "name")) && !Get(args, "name").Str? ==> t.outcome.Throw? && t.sent == []
    ensures Get(args, "name").Str? && Get(args, "name").s != "" && HasKey(env) ==>
      t.sent == [HttpRequest("POST", BaseUrl(env) + Client.WorkflowsPath, env.apiKey.value,
                             Some(Client.SimpleWorkflowBody(Get(args, "name").s)))]
    ensures RelaysReply(rt, t)
  {
    var name := Get(args, "name");
    if !Truthy(name) then Traced(Ok(Refusal(MissingName)), [])
    else Wrap(rt, CreateCall(env, rt, name, Get(args, "active")))
  }

  /** `patch || workflow`: the payload `update_workflow` sends. */
  function UpdatePayload(args: Value): (payload: Value)
    ensures Truthy(Get(args, "patch")) ==> payload == Get(args, "patch")
    ensures !Truthy(Get(args, "patch")) ==> payload == Get(args, "workflow")
  {
    Or(Get(args, "patch"), Get(args, "workflow"))
  }

  /** `tool_update_workflow(args)` */
  function UpdateWorkflowTool(env: Env, rt: Runtime, args: Value): (t: Traced<ToolResult>)
    ensures Disciplined(t)
    ensures !Truthy(Get(args, "id")) ==> t == Traced(Ok(Refusal(MissingId(Catalog.UpdateWorkflow))), [])
    ensures Truthy(Get(args, "id")) && !(Truthy(UpdatePayload(args)) && IsObjectType(UpdatePayload(args))) ==>
      t == Traced(Ok(Refusal(MissingPayload)), [])
    ensures var id, payload := Get(args, "id"), UpdatePayload(args);
      Truthy(id) && Truthy(payload) && IsObjectType(payload) && !Convertible(id) ==>
        t == Traced(Throw(TypeError(CannotConvert)), [])
    ensures var id, payload := Get(args, "id"), UpdatePayload(args);
      Truthy(id) && Convertible(id) && Truthy(payload) && IsObjectType(payload) && HasKey(env) ==>
      t.sent == [HttpRequest("PATCH", BaseUrl(env) + Client.WorkflowPath(Get(args, "id")), env.apiKey.value,
                             Some(UpdatePayload(args)))]
    ensures RelaysReply(rt, t)
  {
    var id := Get(args, "id");
    if !Truthy(id) then Traced(Ok(Refusal(MissingId(Catalog.UpdateWorkflow))), [])
    else
      var payload := UpdatePayload(args);
      if !Truthy(payload) || !IsObjectType(payload) then Traced(Ok(Refusal(MissingPayload)), [])
      else Wrap(rt, Client.UpdateWorkflowById(env, rt, id, payload))
  }

  /** `tool_run_workflow(args)`: `runWorkflow(id, { payload, mode })`. */
  function RunWorkflowTool(env: Env, rt: Runtime, args: Value): (t: Traced<ToolResult>)
    ensures Disciplined(t)
    ensures !Truthy(Get(args, "id")) ==> t == Traced(Ok(Refusal(MissingId(Catalog.RunWorkflow))), [])
    ensures Truthy(Get(args, "id")) && !Convertible(Get(args, "id")) ==> t == Traced(Throw(TypeError(CannotConvert)), [])
    ensures Truthy(Get(args, "id")) && Convertible(Get(args, "id")) && HasKey(env) ==>
      t.sent == [HttpRequest("POST", BaseUrl(env) + (Client.WorkflowPath(Get(args, "id")) + "/run"), env.apiKey.value,
                             Client.RunBody(Get(args, "payload"), Get(args, "mode")))]
    ensures RelaysReply(rt, t)
  {
    var id := Get(args, "id");
    if !Truthy(id) then Traced(Ok(Refusal(MissingId(Catalog.RunWorkflow))), [])
    else
      var options := Obj(map["payload" := Get(args, "payload"), "mode" := Get(args, "mode")]);
      Wrap(rt, Client.RunWorkflow(env, rt, id, options))
  }

  /** `tool_list_executions(args)` */
  function ListExecutionsTool(env: Env, rt: Runtime, args: Value): (t: Traced<ToolResult>)
    ensures Disciplined(t)
    ensures t.outcome.Ok? ==> !t.outcome.value.isError
    ensures !args.Null? && Client.ExecutionsQuery(Client.OptionsBag(args).value).Throw? ==>
      t == Traced(Throw(TypeError(CannotConvert)), [])
    ensures !args.Null? && Client.ExecutionsQuery(Client.OptionsBag(args).value).Ok? && HasKey(env) ==>
      t.sent == [HttpRequest("GET", BaseUrl(env) + Client.ExecutionsListPath(Client.ExecutionsQuery(Client.OptionsBag(args).value).value),
                             env.apiKey.value, None)]
    ensures RelaysReply(rt, t)
  {
    Wrap(rt, Client.ListExecutions(env, rt, args))
  }

  /** The dispatch of `tools/call` once the tool is known. */
  function Dispatch(tool: Catalog.Tool, env: Env, rt: Runtime, args: Value): (t: Traced<ToolResult>)
    ensures Disciplined(t)
  {
    match tool
    case ListWorkflows => ListWorkflowsTool(env, rt, args)
    case GetWorkflow => IdTool(env, rt, tool, args)
    case CreateWorkflow => CreateWorkflowTool(env, rt, args)
    case UpdateWorkflow => UpdateWorkflowTool(env, rt, args)
    case DeleteWorkflow => IdTool(env, rt, tool, args)
    case RunWorkflow => RunWorkflowTool(env, rt, args)
    case ListExecutions => ListExecutionsTool(env, rt, args)
    case GetExecution => IdTool(env, rt, tool, args)
    case StopExecution => IdTool(env, rt, tool, args)
  }

  /** Each tool reaches its own client operation: whenever a tool makes its call,
      the request is the one that operation builds from the tool's arguments. */
  lemma DispatchSendsOwnRequest(tool: Catalog.Tool, env: Env, rt: Runtime, args: Value)
    ensures var t := Dispatch(tool, env, rt, args);
      var id := Get(args, "id");
      |t.sent| == 1 ==>
        && HasKey(env)
        && var key := env.apiKey.value;
        && var base := BaseUrl(env);
        match tool
        case ListWorkflows =>
          t.sent[0] == HttpRequest("GET", base + Client.WorkflowsPath, key, None)
        case GetWorkflow =>
          t.sent[0] == HttpRequest("GET", base + Client.WorkflowPath(id), key, None)
        case CreateWorkflow =>
          Get(args, "name").Str? &&
          t.sent[0] == HttpRequest("POST", base + Client.WorkflowsPath, key,
                                   Some(Client.SimpleWorkflowBody(Get(args, "name").s)))
        case UpdateWorkflow =>
          t.sent[0] == HttpRequest("PATCH", base + Client.WorkflowPath(id), key, Some(UpdatePayload(args)))
        case DeleteWorkflow =>
          t.sent[0] == HttpRequest("DELETE", base + Client.WorkflowPath(id), key, None)
        case RunWorkflow =>
          t.sent[0] == HttpRequest("POST", base + (Client.WorkflowPath(id) + "/run"), key,
                                   Client.RunBody(Get(args, "payload"), Get(args, "mode")))
        case ListExecutions =>
          Client.ExecutionsQuery(Client.OptionsBag(args).value).Ok? &&
          t.sent[0] == HttpRequest("GET", base + Client.ExecutionsListPath(
                                     Client.ExecutionsQuery(Client.OptionsBag(args).value).value), key, None)
        case GetExecution =>
          t.sent[0] == HttpRequest("GET", base + Client.ExecutionPath(id), key, None)
        case StopExecution =>
          t.sent[0] == HttpRequest("POST", base + (Client.ExecutionPath(id) + "/stop"), key, None)
  {
    match tool
    case ListWorkflows =>
      assert Client.ListWorkflows(env, rt, args).sent == ListWorkflowsTool(env, rt, args).sent;
    case CreateWorkflow =>
    case UpdateWorkflow =>
    case RunWorkflow =>
    case ListExecutions =>
    case _ =>
  }

  /** Every tool but `list_workflows` answers the one request it made with the
      client's answer to it: an ok reply as a successful result holding the
      reply's JSON text, any other outcome as a fault. */
  lemma DispatchRelaysReply(tool: Catalog.Tool, env: Env, rt: Runtime, args: Value)
    requires tool != Catalog.ListWorkflows
    ensures RelaysReply(rt, Dispatch(tool, env, rt, args))
  {
    match tool
    case CreateWorkflow =>
    case UpdateWorkflow =>
    case RunWorkflow =>
    case ListExecutions =>
    case _ =>
  }

  /** Each tool that accepts its arguments answers with the wrapped result of its
      own client operation, called with the arguments the wrapper passes on. */
  lemma DispatchWrapsClient(tool: Catalog.Tool, env: Env, rt: Runtime, args: Value)
    ensures var t := Dispatch(tool, env, rt, args);
      var id := Get(args, "id");
      match tool
      case ListWorkflows =>
        var listed := Client.ListWorkflows(env, rt, args);
        && t.sent == listed.sent
        && (listed.outcome.Throw? ==> t.outcome == Throw(listed.outcome.fault))
        && (listed.outcome.Ok? ==> t.outcome == Relay(rt, Ok(SummariesValue(listed.outcome.value))))
      case GetWorkflow => Truthy(id) ==> t == Wrap(rt, Client.GetWorkflowById(env, rt, id))
      case CreateWorkflow =>
        var name := Get(args, "name");
        Truthy(name) ==>
          t == Wrap(rt, Client.CreateSimpleWorkflow(env, rt,
                          Obj(map["name" := name, "active" := Bool(Truthy(Get(args, "active")))])))
      case UpdateWorkflow =>
        var payload := UpdatePayload(args);
        Truthy(id) && Truthy(payload) && IsObjectType(payload) ==>
          t == Wrap(rt, Client.UpdateWorkflowById(env, rt, id, payload))
      case DeleteWorkflow => Truthy(id) ==> t == Wrap(rt, Client.DeleteWorkflowById(env, rt, id))
      case RunWorkflow =>
        Truthy(id) ==>
          t == Wrap(rt, Client.RunWorkflow(env, rt, id,
                          Obj(map["payload" := Get(args, "payload"), "mode" := Get(args, "mode")])))
      case ListExecutions => t == Wrap(rt, Client.ListExecutions(env, rt, args))
      case GetExecution => Truthy(id) ==> t == Wrap(rt, Client.GetExecutionById(env, rt, id))
      case StopExecution => Truthy(id) ==> t == Wrap(rt, Client.StopExecutionById(env, rt, id))
  {
    match tool
    case CreateWorkflow =>
      var name := Get(args, "name");
      if Truthy(name) {
        var input := Obj(map["name" := name, "active" := Bool(Truthy(Get(args, "active")))]);
        assert CreateCall(env, rt, name, Get(args, "active")) == Client.CreateSimpleWorkflow(env, rt, input);
      }
    case _ =>
  }

  /** The catalog's `required` lists are what the wrappers enforce: a tool refuses
      without calling the backing API when a required argument is falsy, and
      otherwise refuses only in the case of `update_workflow` without an object
      payload. */
  lemma RefusalIffRequiredMissing(tool: Catalog.Tool, env: Env, rt: Runtime, args: Value)
    ensures var t := Dispatch(tool, env, rt, args);
      var missing := exists r :: r in Catalog.Required(tool) && !Truthy(Get(args, r));
      var refused := t.outcome.Ok? && t.outcome.value.isError;
      && (missing ==> refused && t.sent == [] && |t.outcome.value.content| == 1)
      && (refused <==> missing || (tool == Catalog.UpdateWorkflow
                                   && !(Truthy(UpdatePayload(args)) && IsObjectType(UpdatePayload(args)))))
  {
    if tool == Catalog.CreateWorkflow {
      assert Catalog.Required(tool) == ["name"];
    } else if tool !in {Catalog.ListWorkflows, Catalog.ListExecutions} {
      assert Catalog.Required(tool) == ["id"];
    }
  }

  /** `patch` shadows `workflow`: a truthy `patch` that is not an object is
      refused even when `workflow` is a valid object, and `workflow` is sent only
      when `patch` is falsy. */
  lemma UpdatePatchTakesPrecedence(env: Env, rt: Runtime, args: Value)
    requires Truthy(Get(args, "id")) && HasKey(env)
    ensures var t := UpdateWorkflowTool(env, rt, args);
      var patch := Get(args, "patch");
      var workflow := Get(args, "workflow");
      && (Truthy(patch) && !IsObjectType(patch) ==> t == Traced(Ok(Refusal(MissingPayload)), []))
      && (Truthy(patch) && IsObjectType(patch) && Convertible(Get(args, "id")) ==> t.sent[0].body == Some(patch))
      && (!Truthy(patch) && Truthy(workflow) && IsObjectType(workflow) && Convertible(Get(args, "id")) ==>
            t.sent[0].body == Some(workflow))
      && (!Truthy(patch) && !(Truthy(workflow) && IsObjectType(workflow)) ==> t == Traced(Ok(Refusal(MissingPayload)), []))
  {
  }
}

=== FILE: workflow_filter.dfy ===
/** The post-fetch processing of `listWorkflows`: each workflow is projected to a
    summary, then filtered by name, then by activity, then truncated. */
module WorkflowFilter {
  import opened Optional
  import opened Strings
  import opened Js
  import opened Sequences

  /** The projection `{ id, name, active: !!active, createdAt, updatedAt }` of one workflow. */
  datatype Summary = Summary(id: Value, name: Value, active: bool, createdAt: Value, updatedAt: Value)

  /** The summary of a workflow object (`wf` is not nullish). */
  function Summarize(wf: Value): Summary {
    Summary(Get(wf, "id"), Get(wf, "name"), Truthy(Get(wf, "active")), Get(wf, "createdAt"), Get(wf, "updatedAt"))
  }

  /** A summary as the JavaScript object the listing returns. */
  function SummaryValue(w: Summary): Value {
    Obj(map["id" := w.id, "name" := w.name, "active" := Bool(w.active),
            "createdAt" := w.createdAt, "updatedAt" := w.updatedAt])
  }

  /** `rawWorkflows.map(wf => ({ ... }))`, which throws on the first element that is
      `null` (reading `wf.id` fails). */
  function ProjectAll(raw: seq<Value>): (r: Result<seq<Summary>>)
    ensures r.Ok? <==> forall i :: 0 <= i < |raw| ==> !IsNullish(raw[i])
    ensures r.Ok? ==> |r.value| == |raw| && forall i :: 0 <= i < |raw| ==> r.value[i] == Summarize(raw[i])
  {
    if |raw| == 0 then Ok([])
    else if IsNullish(raw[0]) then
      Throw(TypeError("Cannot read properties of " + ToStr(raw[0]) + " (reading 'id')"))
    else
      match ProjectAll(raw[1..])
      case Throw(f) => Throw(f)
      case Ok(rest) => Ok([Summarize(raw[0])] + rest)
  }

  /** Which summaries a filter keeps: `needle` is the lower-cased search text, if a
      name filter applies, and `activeOnly` asks for active workflows only. */
  datatype Criteria = Criteria(needle: Option<string>, activeOnly: bool)

  /** `w.name.toLowerCase().includes(needle)` for a string name. */
  predicate NameMatches(w: Summary, needle: string) {
    w.name.Str? && Includes(Lower(w.name.s), needle)
  }

  predicate Wanted(w: Summary, c: Criteria) {
    && (c.needle.None? || NameMatches(w, c.needle.value))
    && (!c.activeOnly || w.active)
  }

  /** `ws.filter(w => Wanted(w, c))` */
  function Select(ws: seq<Summary>, c: Criteria): (r: seq<Summary>)
    ensures |r| <= |ws|
    ensures forall i :: 0 <= i < |r| ==> Wanted(r[i], c) && r[i] in ws
    ensures forall w :: w in ws && Wanted(w, c) ==> w in r
  {
    if |ws| == 0 then []
    else (if Wanted(ws[0], c) then [ws[0]] else []) + Select(ws[1..], c)
  }

  /** A filter keeps an order-preserving subsequence of its input. */
  lemma {:induction false} SelectIsSubsequence(ws: seq<Summary>, c: Criteria)
    ensures IsSubsequence(Select(ws, c), ws)
  {
    if |ws| > 0 {
      SelectIsSubsequence(ws[1..], c);
      var r := Select(ws, c);
      if Wanted(ws[0], c) {
        assert r[1..] == Select(ws[1..], c);
      } else {
        assert r == Select(ws[1..], c);
      }
    }
  }

  /** Filtering with no criterion keeps everything. */
  lemma {:induction false} SelectNothing(ws: seq<Summary>)
    ensures Select(ws, Criteria(None, false)) == ws
  {
    if |ws| > 0 {
      SelectNothing(ws[1..]);
    }
  }

  /** Filtering by name and then by activity is filtering once by both. */
  lemma {:induction false} SelectFusion(ws: seq<Summary>, needle: Option<string>)
    ensures Select(Select(ws, Criteria(needle, false)), Criteria(None, true)) == Select(ws, Criteria(needle, true))
  {
    if |ws| > 0 {
      SelectFusion(ws[1..], needle);
      var first := Select(ws, Criteria(needle, false));
      if Wanted(ws[0], Criteria(needle, false)) {
        assert first[0] == ws[0];
        assert first[1..] == Select(ws[1..], Criteria(needle, false));
      } else {
        assert first == Select(ws[1..], Criteria(needle, false));
      }
    }
  }

  /** `Array.prototype.slice(0, end)`: the index the slice stops at, for an array
      of length `len` (a negative `end` counts from the back). */
  function SliceEnd(len: nat, end: int): (k: nat)
    ensures k <= len
    ensures end >= 0 ==> k == if end < len then end else len
    ensures end < 0 ==> k + (if -end < len then -end else len) == len
  {
    if end < 0 then (if len + end < 0 then 0 else len + end)
    else if end < len then end else len
  }

  /** Step one: `if (search && search.trim())`, filter on the lower-cased name. A
      truthy search that is not a string, or a name that is not one, throws. */
  function SearchStep(ws: seq<Summary>, search: Value): (r: Result<seq<Summary>>)
    ensures !Truthy(search) ==> r == Ok(ws)
    ensures Truthy(search) && !search.Str? ==> r.Throw?
    ensures search.Str? && IsBlank(search.s) ==> r == Ok(ws)
    ensures r.Ok? ==> forall i :: 0 <= i < |r.value| ==> r.value[i] in ws
    ensures search.Str? && !IsBlank(search.s) ==>
      && (r.Ok? <==> forall i :: 0 <= i < |ws| ==> ws[i].name.Str?)
      && (r.Ok? ==> forall i :: 0 <= i < |r.value| ==> NameMatches(r.value[i], Lower(search.s)))
  {
    if !Truthy(search) then Ok(ws)
    else if !search.Str? then Throw(TypeError("search.trim is not a function"))
    else
      TrimEmptyIffBlank(search.s);
      if Trim(search.s) == "" then Ok(ws)
      else if exists i | 0 <= i < |ws| :: !ws[i].name.Str? then
        Throw(TypeError("w.name.toLowerCase is not a function"))
      else Ok(Select(ws, Criteria(Some(Lower(search.s)), false)))
  }

  /** Step two: `if (activeOnly)`, keep the active workflows. */
  function ActiveStep(ws: seq<Summary>, activeOnly: Value): (r: seq<Summary>)
    ensures forall i :: 0 <= i < |r| ==> r[i] in ws
    ensures Truthy(activeOnly) ==> forall i :: 0 <= i < |r| ==> r[i].active
    ensures forall w :: w in ws && (w.active || !Truthy(activeOnly)) ==> w in r
  {
    if Truthy(activeOnly) then Select(ws, Criteria(None, true)) else ws
  }

  /** Step three: `if (typeof limit === "number")`, `slice(0, limit)`. */
  function LimitStep(ws: seq<Summary>, limit: Value): (r: seq<Summary>)
    ensures |r| <= |ws| && r == ws[..|r|]
    ensures !limit.Num? ==> r == ws
    ensures limit.Num? && limit.n >= 0 ==> |r| == if limit.n < |ws| then limit.n else |ws|
    ensures limit.Num? ==> |r| == SliceEnd(|ws|, limit.n)
  {
    if limit.Num? then ws[..SliceEnd(|ws|, limit.n)] else ws
  }

  /** The three steps in the source's order. */
  function Pipeline(ws: seq<Summary>, search: Value, activeOnly: Value, limit: Value): (r: Result<seq<Summary>>)
    ensures r.Throw? ==> Truthy(search)
    ensures r.Ok? ==> forall i :: 0 <= i < |r.value| ==> r.value[i] in ws && Wanted(r.value[i], CriteriaOf(search, activeOnly))
  {
    match SearchStep(ws, search)
    case Throw(f) => Throw(f)
    case Ok(found) => Ok(LimitStep(ActiveStep(found, activeOnly), limit))
  }

  /** The criteria the three steps apply, stated at once. */
  function CriteriaOf(search: Value, activeOnly: Value): Criteria {
    Criteria(if search.Str? && !IsBlank(search.s) then Some(Lower(search.s)) else None, Truthy(activeOnly))
  }

  /** The pipeline fails exactly when the search is truthy but not a string, or a
      non-blank search meets a workflow whose name is not a string. */
  lemma PipelineThrows(ws: seq<Summary>, search: Value, activeOnly: Value, limit: Value)
    ensures Pipeline(ws, search, activeOnly, limit).Throw? <==>
      || (Truthy(search) && !search.Str?)
      || (search.Str? && !IsBlank(search.s) && exists i :: 0 <= i < |ws| && !ws[i].name.Str?)
  {
  }

  /** A successful search step is the name filter of the combined criteria. */
  lemma SearchStepIsSelect(ws: seq<Summary>, search: Value)
    requires SearchStep(ws, search).Ok?
    ensures SearchStep(ws, search).value == Select(ws, Criteria(CriteriaOf(search, Null).needle, false))
  {
    if CriteriaOf(search, Null).needle.None? {
      SelectNothing(ws);
    }
  }

  /** Applying the active step after the name filter is the combined filter. */
  lemma ActiveStepIsSelect(ws: seq<Summary>, needle: Option<string>, activeOnly: Value)
    ensures ActiveStep(Select(ws, Criteria(needle, false)), activeOnly) == Select(ws, Criteria(needle, Truthy(activeOnly)))
  {
    if Truthy(activeOnly) {
      SelectFusion(ws, needle);
    }
  }

  /** The pipeline returns the first matches: the workflows meeting every
      criterion, in their original order, cut to `limit` when it is a number. */
  lemma PipelineIsFirstMatches(ws: seq<Summary>, search: Value, activeOnly: Value, limit: Value)
    requires Pipeline(ws, search, activeOnly, limit).Ok?
    ensures Pipeline(ws, search, activeOnly, limit).value == LimitStep(Select(ws, CriteriaOf(search, activeOnly)), limit)
  {
    var needle := CriteriaOf(search, Null).needle;
    assert CriteriaOf(search, activeOnly) == Criteria(needle, Truthy(activeOnly));
    SearchStepIsSelect(ws, search);
    ActiveStepIsSelect(ws, needle, activeOnly);
  }

  /** What the listing promises: an order-preserving subsequence of the summaries,
      every one meeting the criteria; all that meet them when no limit is given,
      and `min(limit, matches)` of them for a non-negative limit. */
  lemma PipelineProperties(ws: seq<Summary>, search: Value, activeOnly: Value, limit: Value)
    requires Pipeline(ws, search, activeOnly, limit).Ok?
    ensures var r := Pipeline(ws, search, activeOnly, limit).value;
      var c := CriteriaOf(search, activeOnly);
      && IsSubsequence(r, ws)
      && (forall i :: 0 <= i < |r| ==> Wanted(r[i], c))
      && (!limit.Num? ==> forall w :: w in ws && Wanted(w, c) ==> w in r)
      && (limit.Num? && limit.n >= 0 ==>
            |r| == if limit.n < |Select(ws, c)| then limit.n else |Select(ws, c)|)
  {
    var c := CriteriaOf(search, activeOnly);
    PipelineIsFirstMatches(ws, search, activeOnly, limit);
    var all := Select(ws, c);
    var r := LimitStep(all, limit);
    SelectIsSubsequence(ws, c);
    PrefixIsSubsequence(all, ws, |r|);
    assert all[..|r|] == r;
  }
}
